=== FILE: README.md ===
# trading-algo simulation engine in Dafny

This project models the trade-simulation engine of the `trading-algo` repository. The engine replays a price series tick by tick and lets a strategy buy and sell on a ledger. The ledger keeps cash, a holding per stock and an append-only log of the trades it accepted. The model covers five parts:

- **Tickers** (`utils/ticker.py`): the simulated time cursor. The source shares one process-wide instance. Here a ticker is an immutable value that each run resets and threads through explicitly.
- **Stocks** (`finance/stock.py`): a named table of columns with the column-name mapping. It includes the whole-column listing and the "as of now" lookup, which clamps the tick to the last row. The close/open/low/high accessors are included too. A stock's current price is its close at the clamped tick. The series length is the length of its Open column.
- **Transactions** (`finance/transaction.py`, `TransactionType` of `finance/enums.py`): the trade record. Also the folds over a log: cash flow, net quantity per stock, and the per-stock filter.
- **Portfolios** (`finance/portfolio.py`): `buy`, `sell`, `buy_amount`, `sell_amount`, the log views, `get_holding` and the holdings report.
  - Each operation returns a new ledger or the reason it refused (`Result`), in place of raising.
  - Holdings are keyed by stock name.
  - The module proves these ledger invariants:
    - a log audit: cash is the initial cash plus the log's cash flow, and each holding is the log's net quantity;
    - conservation of cash plus holdings value at fixed prices;
    - the no-short and funds checks.
- **Algorithms** (`finance/algorithms.py`): the fixed-schedule strategy `A` and the threshold strategy `TenPercent`. Each is written as recursion over the tick index, and `TenPercent` also threads its per-stock lock map through that recursion. `TickStart` and `Turn` name the state a `TenPercent` run reaches at the start of a tick and at one stock's visit within it, so that lemmas about a whole run can say which trades each visit records.

Scenarios holds worked runs proved as lemmas:
- `TenPercent` on a five-price series, from the seeded locks to the final sell-off;
- `A` on a hundred ticks at a steady price, through all ten checkpoints;
- the runs that abort: a lock seeded at 0, and a stock with no Close column.

Prices, cash and amounts are reals, and quantities are integers. Python's `//` is `.Floor` of the real quotient. Python's `int()` on a real truncates toward zero (`Trunc`).

The model follows `finance/algorithms.py` as written. `TenPercent` has these properties:
- the lock blend is fixed at 0.5;
- a triggered sell is of int(holding * percent) shares;
- refused trades are swallowed;
- the final sell-off sells each listed stock's whole holding;
- it runs on a no-short ledger.

## Model

| member | source | states |
|---|---|---|
| Tickers.New | utils/ticker.py:3-4 | a fresh ticker reads the tick it was created with |
| Tickers.Default | utils/ticker.py:3-4 | the ticker created with no argument reads 0 |
| Tickers.Tick | utils/ticker.py:6-7 | a tick advances the value by exactly one |
| Tickers.Reset | utils/ticker.py:13-14 | a reset reads 0 whatever the ticker read before |
| Tickers.TickN | utils/ticker.py:6-11 | n ticks advance the value by exactly n |
| Tickers.ResetThenTicks | utils/ticker.py:6-14 | a reset followed by n ticks reads n, the same as a ticker created at n |
| Stocks.ToColname | finance/stock.py:31-49 | every argument maps to one of the four column names; anything that is not a member maps to Close |
| Stocks.ColnamesDistinct | finance/stock.py:25-49 | the four kinds name four pairwise different columns, and the fallback is Close's column |
| Stocks.Values | finance/stock.py:91-100 | a missing column is an error naming it; a present column is listed in full, whatever the other columns hold; on a series with four equal non-empty columns the listing has the series length |
| Stocks.ILoc | finance/stock.py:112 | positional indexing succeeds exactly for -len <= i < len; non-negative i counts from the front, negative i from the back |
| Stocks.GetValue | finance/stock.py:102-112 | a missing column is an error; an empty column is an index error; 0 <= t < len gives element t; t >= len gives the last element |
| Stocks.ClampedOverrun | finance/stock.py:112 | on a present, non-empty column, reading past the end succeeds and equals the reading at len - 1 |
| Stocks.ValuesMatchLookup | finance/stock.py:100-112 | on any present column, the lookup at t is element t of the values listing within the column, and the listing's last element past its end |
| Stocks.CloseAt | finance/stock.py:114-116 | the close accessor succeeds exactly on a non-empty Close column and reads it at min(len - 1, t); a missing column and an empty one are told apart |
| Stocks.OpenAt | finance/stock.py:118-120 | the open accessor succeeds exactly on a non-empty Open column and reads it at min(len - 1, t) |
| Stocks.LowAt | finance/stock.py:122-124 | the low accessor succeeds exactly on a non-empty Low column and reads it at min(len - 1, t) |
| Stocks.HighAt | finance/stock.py:126-128 | the high accessor succeeds exactly on a non-empty High column and reads it at min(len - 1, t) |
| Stocks.Price | finance/stock.py:114-116 | the current price of a series with a non-empty Close column is what the close accessor returns, and is positive when every close is |
| Transactions.ForStock | finance/portfolio.py:77-78 | the per-stock filter holds exactly the log entries of that stock and is no longer than the log |
| Transactions.ForStockAppend | finance/portfolio.py:77-78 | the filter distributes over appending, so it keeps log order |
| Transactions.CashFlowAppend | finance/portfolio.py:43-68 | the cash flow of two logs laid end to end is the sum of theirs |
| Transactions.NetAppend | finance/portfolio.py:45-69 | the net quantity of two logs laid end to end is the sum of theirs |
| Portfolios.New | finance/portfolio.py:22-27 | a fresh ledger has the initial cash, the short flag, an empty log and a zero holding of every stock |
| Portfolios.Trade | finance/portfolio.py:40-42 | a log entry's amount is its price times its quantity |
| Portfolios.Buy | finance/portfolio.py:29-45 | quantity 0 is refused; a cost above the cash is refused; it succeeds exactly otherwise; on success one BUY entry with the tick, price and amount is appended, cash falls by the amount, that holding rises by the quantity, no other holding changes, and cash stays >= 0 |
| Portfolios.Sell | finance/portfolio.py:53-69 | quantity 0 is refused; on a no-short ledger a quantity above the holding is refused; it succeeds exactly otherwise; on success one SELL entry is appended, cash rises by the amount, the holding falls by the quantity, nothing else changes; a no-short holding stays >= 0; a positive sale at a positive price raises the cash |
| Portfolios.SellAsWritten | finance/portfolio.py:53-58 | the source's sell accepts a non-zero quantity exactly on a short-allowing ledger; on a no-short ledger every non-zero sell fails |
| Portfolios.SellAsWrittenRefusesCoveredSale | finance/portfolio.py:57-58 | a no-short ledger holding 5 shares: the source's sell refuses to sell 1 share, which the corrected sell accepts |
| Portfolios.FloorShares | finance/portfolio.py:48 | at a positive price, floor(amount / price) shares cost at most the amount and one more share would cost more; an amount below the price buys 0 shares |
| Portfolios.BuyAmount | finance/portfolio.py:47-51 | a zero price is a division error; an amount below the price fails as a zero quantity; on success it trades exactly floor(amount / price) shares through `buy` and reports that quantity, with price*q <= amount < price*(q+1); it fails exactly when that buy fails |
| Portfolios.SellAmount | finance/portfolio.py:71-75 | a zero price is a division error; an amount below the price fails as a zero quantity; on success it trades exactly floor(amount / price) shares through `sell` and reports that quantity; it fails exactly when that sell fails |
| Portfolios.StockTransactions | finance/portfolio.py:77-78 | the per-stock view holds exactly the log entries of that stock |
| Portfolios.AllTransactions | finance/portfolio.py:80-81 | the full log view has one entry per recorded trade, and filtering it by a stock gives that stock's view |
| Portfolios.LogAppendOnly | finance/portfolio.py:77-81 | an accepted trade extends the full log by that one entry, and extends the per-stock view by it only for its own stock |
| Portfolios.GetHolding | finance/portfolio.py:83-86 | the holding row carries the name and the ledger's quantity of that stock (0 for a stock never traded), valued at quantity times the current price |
| Portfolios.HoldingsReport | finance/portfolio.py:88-94 | one row per stock with a ledger entry, each with its quantity and its valuation at its own price |
| Portfolios.HoldingMatchesLog | finance/portfolio.py:40-45 | on a ledger that agrees with its log, the holding row's quantity is the log's net quantity of that stock, and its valuation is that net quantity at the price |
| Portfolios.ReportTotalsWorth | finance/portfolio.py:88-94 | cash plus the summed valuations of the report rows is the ledger's worth at the same prices |
| Portfolios.RecordsReplays | finance/portfolio.py:40-45 | one accepted trade is a replay of its one log entry on top of the ledger before it |
| Portfolios.ReplaysTrans | finance/portfolio.py:40-69 | replaying two consecutive stretches of log is replaying their concatenation |
| Portfolios.NewIsAudited | finance/portfolio.py:22-27 | a fresh ledger agrees with its empty log |
| Portfolios.ReplaysKeepAudit | finance/portfolio.py:40-69 | a ledger that agrees with its log keeps agreeing under every replayed stretch of trades: cash is initial cash plus the log's cash flow, each holding is the log's net quantity |
| Portfolios.HoldingsValueShift | finance/portfolio.py:45-69 | changing one holding changes the value of a distinct list of holdings by exactly that holding's change in value |
| Portfolios.RecordConservesWorth | finance/portfolio.py:43-69 | a recorded trade at the stock's own price leaves cash plus holdings value unchanged |
| Portfolios.TradesConserveWorth | finance/portfolio.py:29-69 | at fixed prices every accepted buy or sell leaves cash plus the value of the holdings unchanged |
| Portfolios.BuyThenSellRestores | finance/portfolio.py:29-69 | buying q > 0 shares and selling them back at the same price restores cash and every holding, and logs both trades |
| Algorithms.Checkpoints | finance/algorithms.py:19-24 | each checkpoint is int(f * total): the largest integer not above f * total |
| Algorithms.FractionOfRun | finance/algorithms.py:19-24 | a fraction in [0, 1) of a non-empty run is a tick the run visits |
| Algorithms.CheckpointsInRun | finance/algorithms.py:18-24 | every checkpoint of the schedule lies in [0, total) |
| Algorithms.ScheduleOfHundred | finance/algorithms.py:19-24 | for 100 ticks the buys fall at 5, 35, 65, 75, 95 and the sells at 25, 41, 70, 90, 99 |
| Algorithms.AppendScheduled | finance/algorithms.py:18-27 | a scheduled entry in a later slot extends a scheduled log to a scheduled log |
| Algorithms.AppendStamped | finance/algorithms.py:18-27 | an entry stamped no earlier than every entry before it keeps the log in time order |
| Algorithms.TradedKept | finance/algorithms.py:18-27 | a trade made at a tick stays in every extension of the log |
| Algorithms.BuyPhase | finance/algorithms.py:19-21 | off a buy checkpoint nothing happens; at one, a failed close lookup aborts with its error; otherwise it succeeds exactly when buy_amount(cash / 5) at the close succeeds, fails with that buy's error otherwise, and on success records a BUY of floor(cash / 5 / price) shares at the close, which costs at most cash / 5 |
| Algorithms.SellPhase | finance/algorithms.py:23-25 | off a sell checkpoint nothing happens; at one, a zero latest quantity aborts as a zero-quantity sell, a failed close lookup aborts with its error; otherwise it succeeds exactly when selling the latest bought quantity at the close succeeds, fails with that sell's error otherwise, and on success records that SELL |
| Algorithms.BuyKeepsMidTick | finance/algorithms.py:19-21 | a buy at a buy checkpoint keeps the log scheduled and time-ordered, and it becomes the latest buy |
| Algorithms.BuyPhaseKeepsInvariant | finance/algorithms.py:19-21 | the buy branch keeps the loop invariant: log scheduled, time-ordered, latest buy quantity tracked |
| Algorithms.BuyCheckpointKeepsInvariant | finance/algorithms.py:19-21 | at a buy checkpoint the recorded BUY replays onto the ledger and keeps the loop invariant |
| Algorithms.SellPhaseKeepsInvariant | finance/algorithms.py:23-27 | the sell branch followed by the tick keeps the loop invariant for the next tick |
| Algorithms.TickCovered | finance/algorithms.py:19-25 | a completed tick leaves a BUY stamped with it in every later log when it is a buy checkpoint, and a SELL when it is a sell checkpoint |
| Algorithms.TickThenRest | finance/algorithms.py:18-27 | one completed tick followed by a completed rest of the loop: replay, checkpoint coverage, schedule and solvency of the rest extend to the tick |
| Algorithms.ALoop | finance/algorithms.py:18-27 | a completed loop leaves the ticker at total and replays onto the starting ledger; it holds a BUY at every buy checkpoint and a SELL at every sell checkpoint it passed; started in the invariant, its log follows the schedule and is stamped before total; on a stock with a readable close every failure is tagged as a refused trade (which tick and which branch fail is stated by `ALoopAbortsExactly`); with positive closes and non-negative cash the cash stays >= 0 |
| Algorithms.A | finance/algorithms.py:11-28 | no stocks is an error; a first stock without an Open column is a lookup error; on a non-empty run a stock without a readable close fails with that lookup's error, and with one every failure is tagged as a refused trade (`AAbortsExactly` states which tick and branch fail); an empty run always completes; a completed run ends with the ticker at the series length and a no-short ledger that agrees with its log; it made the trade of every checkpoint inside the run and no other: each buy at a buy checkpoint of floor(cash / 5 / price) shares at a non-zero price, spending at most cash / 5 when the price is positive, each sell at a sell checkpoint selling the latest bought quantity, at most one of each per tick, the buy first; with positive closes and cash >= 0 the cash ends >= 0 |
| Algorithms.FirstBuyIsEarliest | finance/algorithms.py:19-24 | no checkpoint comes before the first buy checkpoint |
| Algorithms.ALoopSkip | finance/algorithms.py:18-27 | between checkpoints the loop only ticks: its result is the result from the next checkpoint |
| Algorithms.ATick | finance/algorithms.py:19-27 | one tick of the loop fails only at a buy or sell checkpoint, and on a stock with a readable close only with a refused trade; a completed tick replays onto its ledger and carries the loop invariant to the next tick |
| Algorithms.AStart | finance/algorithms.py:12-27 | the state at the start of tick c replays onto the fresh ledger of the initial cash |
| Algorithms.AStartInvariant | finance/algorithms.py:12-27 | every tick start the run reaches holds the loop invariant: the log follows the schedule, is stamped before the tick, and the last bought quantity is the one carried |
| Algorithms.ALoopResumes | finance/algorithms.py:18-27 | the loop from tick 0 equals the loop resumed at tick c from `AStart`, or is `AStart`'s abort |
| Algorithms.ALoopOneTick | finance/algorithms.py:18-27 | the loop at tick c is `ATick` followed by the loop at c + 1, or that tick's abort |
| Algorithms.AStartStaysFailed | finance/algorithms.py:18-27 | once aborted, the run stays aborted with the same error at every later tick |
| Algorithms.AStartFailsAt | finance/algorithms.py:18-27 | an abort before tick n is the failing tick of some c < n that was reached without an abort |
| Algorithms.AStartAborts | finance/algorithms.py:18-27 | the run has aborted by tick n exactly when some tick before n aborted it, with that tick's error |
| Algorithms.ALoopAbortsExactly | finance/algorithms.py:18-27 | the loop from tick 0 fails exactly when some tick before the end, reached without an abort, has a failing buy or sell branch, and then with that branch's error; a completed loop ends with `AStart`'s ledger at the end |
| Algorithms.AAbortsExactly | finance/algorithms.py:11-28 | `A` catches nothing and aborts on nothing else: it fails exactly when some tick's buy or sell branch fails from the state the earlier ticks left, with that branch's error |
| Algorithms.AAbortsOnUnaffordableBuy | finance/algorithms.py:16-21 | when a fifth of the cash is below the price at the first buy checkpoint, `A` fails with a zero-quantity buy, since it catches nothing |
| Algorithms.ALoopWithoutCloses | finance/algorithms.py:16-21 | on a non-empty run whose stock has no readable close, the loop from tick 0 fails at the first buy checkpoint with that lookup's error |
| Algorithms.Trunc | finance/algorithms.py:47-55 | int() truncates toward zero: the result is the integer between 0 and x nearest to x |
| Algorithms.Blend | finance/algorithms.py:48-56 | the re-priced lock is the midpoint of the old lock and the price (as far from one as from the other), so it lies between them and equals the old lock exactly when the price does |
| Algorithms.SeedLast | finance/algorithms.py:37-38 | assigning the last stock's price on top of the earlier stocks' locks keeps every stock locked, at the price of the last stock of each name |
| Algorithms.SeedLocks | finance/algorithms.py:36-38 | seeding succeeds exactly when every stock has a readable close; a failure is the error of the first stock whose close cannot be read; on success every listed stock has a lock equal to its price at tick 0 (for a repeated name, the later stock's price), positive when every close is |
| Algorithms.BuyLeg | finance/algorithms.py:45-51 | no buy unless the price fell more than `percent` below the lock; the ledger changes exactly when it fell that far and the buy of int(cash * percent) worth succeeds; then the lock becomes the blend and one BUY is recorded; a refused buy changes nothing; a solvent ledger stays solvent |
| Algorithms.SellLeg | finance/algorithms.py:53-59 | no sell unless the price rose more than `percent` above the lock; the ledger changes exactly when it rose that far and the sell of int(holding * percent) succeeds; then the lock becomes the blend and one SELL is recorded; a refused sell changes nothing; a solvent ledger stays solvent |
| Algorithms.NoSellAfterBuy | finance/algorithms.py:45-53 | with positive prices and percent >= 0, after a triggered buy the price lies below the blended lock, so the sell test against it does not fire |
| Algorithms.LegsCompose | finance/algorithms.py:45-59 | the buy branch then the sell branch replay onto the ledger, keep its log stamped up to the current tick, and append at most a BUY then a SELL: a BUY only on a fall beyond `percent`, a first SELL only on a rise beyond `percent` and then alone, a SELL after a BUY only on a rise beyond `percent` above the moved lock; the lock is blended once per appended trade; with positive prices and percent >= 0 at most one trade |
| Algorithms.LegsTrade | finance/algorithms.py:45-59 | the two branches append exactly the BUY and SELL entries their trigger and acceptance call for, with the blended locks, and every appended entry is of that stock at that tick and its price |
| Algorithms.LegsOutcome | finance/algorithms.py:42-59 | the two branches meet every clause `Step` promises of a successful step |
| Algorithms.Step | finance/algorithms.py:42-59 | it fails exactly when the lock is 0 or the buy branch has blended it to 0, since both tests divide by it outside the `try`, and the error is always a division by zero; on success the lock keys are kept, only its own lock changes, the ledger replays, and the step appends exactly what `TickTrades` names: a BUY of floor(int(cash * percent) / price) shares at the price exactly when the price fell more than `percent` below the lock and that buy is accepted, then a SELL of int(holding * percent) shares exactly when the price rose more than `percent` above the lock the buy left and that sale is accepted, each new entry of that stock at that tick and price, the lock blended once per trade; a positive lock on positive closes always succeeds and stays positive; solvency is kept; a price equal to the lock changes nothing |
| Algorithms.StepKeepsLocks | finance/algorithms.py:42-57 | one step keeps every listed stock locked, and on positive closes keeps every lock positive |
| Algorithms.StepTrades | finance/algorithms.py:42-59 | a step appends only entries of its own stock at that tick and price, and its lock moves only when that stock traded |
| Algorithms.TradedSinceKept | finance/algorithms.py:42-61 | a trade logged in one stretch of a run stays logged after any later stretch |
| Algorithms.TradesCompose | finance/algorithms.py:41-61 | listed entries, one stamp per stretch and locks that move only with a trade compose over two consecutive stretches |
| Algorithms.StepThenRest | finance/algorithms.py:42-59 | one step followed by the rest of the tick: replay, stamping and solvency of the rest extend to the step |
| Algorithms.StepThenRestTrades | finance/algorithms.py:42-59 | one step followed by the rest of the tick: the rest's listed entries and trade-driven locks extend to the step |
| Algorithms.StockLoop | finance/algorithms.py:42-59 | one tick over all stocks fails only by a division by zero; on success every stock stays locked, the ledger replays and stays stamped up to the tick; on positive closes with positive locks it always succeeds and keeps the locks positive; solvency is kept |
| Algorithms.StockLoopUnfold | finance/algorithms.py:42-59 | a completed tick from stock k is a completed step of stock k followed by the completed tick from k + 1 |
| Algorithms.StockLoopTrades | finance/algorithms.py:42-59 | every entry one tick appends trades a stock visited at that tick at its price then; the lock keys are kept; a lock moves only when its stock traded; a name not visited keeps its lock |
| Algorithms.StepThenPassTrades | finance/algorithms.py:42-59 | a step followed by a completed tick from the next stock gives `StockLoopTrades` from the stepped stock |
| Algorithms.TickThenLoop | finance/algorithms.py:41-61 | one tick over all stocks followed by the rest of the main loop: replay, stamping and solvency of the rest extend to the tick |
| Algorithms.TickLoop | finance/algorithms.py:41-61 | the main loop fails only by a division by zero; on success it ends with the ticker at total and a log stamped before total that replays onto the starting ledger; on positive closes with positive locks it always succeeds; solvency is kept |
| Algorithms.TickLoopTrades | finance/algorithms.py:41-61 | every entry the main loop appends trades a listed stock at that stock's price at the entry's tick; the lock keys are kept; a lock moves only when its stock traded |
| Algorithms.StockLoopStepped | finance/algorithms.py:42-59 | a pass whose step at index k succeeds continues at k + 1 from that step's state, with every stock still locked |
| Algorithms.StockLoopSplit | finance/algorithms.py:42-59 | a completed tick is the tick over the stocks before index i followed by the tick from index i |
| Algorithms.TickLoopSplit | finance/algorithms.py:41-61 | a completed main loop up to total is the loop up to c followed by the loop from c |
| Algorithms.SellAll | finance/algorithms.py:64-67 | selling a stock's whole holding leaves it at 0, touches no other holding, and either records that one sale or changes nothing |
| Algorithms.SellOffCompose | finance/algorithms.py:63-67 | one sale followed by the sell-off of the remaining stocks gives the sell-off's guarantees for all of them |
| Algorithms.SellOff | finance/algorithms.py:63-67 | after the sell-off every listed holding is 0 and unlisted holdings are unchanged; every new entry is a SELL at that tick, priced at the clamped close of a listed stock of that name |
| Algorithms.FinishRun | finance/algorithms.py:62-68 | the main loop's ledger, whose entries all trade listed stocks at their prices, followed by the sell-off gives the ledger `TenPercent` promises |
| Algorithms.MainThenSellOff | finance/algorithms.py:41-68 | the main loop from the seeded locks on a fresh ledger followed by the sell-off gives the ledger `TenPercent` promises |
| Algorithms.TenPercent | finance/algorithms.py:31-68 | a stock with no readable close aborts with the first such lookup's error; otherwise no stocks is an error, a first stock without an Open column is a lookup error, and any other failure is a division by zero; on positive closes it always completes; a completed run ends with the ticker at the series length, a no-short ledger with every listed holding 0 that agrees with its log, stamped up to the series length, every entry a trade of a listed stock at its price at the entry's tick, the entries at the last stamp sell-off sales at the last close; with percent >= 0, cash >= 0 and positive closes the cash ends >= 0 |
| Algorithms.TurnWithinTick | finance/algorithms.py:42-59 | inside a completed tick, stock i is stepped from the state the stocks before it leave, and the rest of the tick keeps that step's entries |
| Algorithms.TickWithinRun | finance/algorithms.py:41-61 | inside a completed main loop, tick c runs from the state the earlier ticks leave, and the later ticks keep its entries |
| Algorithms.TenPercentMain | finance/algorithms.py:31-68 | a completed run is its main loop from the seeded locks on a fresh ledger, whose log the final sell-off extends |
| Algorithms.TickStartInRun | finance/algorithms.py:41-61 | inside a completed main loop, tick c is a completed tick from the state at its start, and the later ticks keep its entries |
| Algorithms.TurnInTick | finance/algorithms.py:42-59 | inside a completed tick, stock i is stepped from the state at its turn, and the tick keeps that step's entries |
| Algorithms.TurnInRun | finance/algorithms.py:41-61 | inside a completed main loop, stock i at tick c is stepped from the state at its turn, and the loop keeps that step's entries |
| Algorithms.TenPercentTurn | finance/algorithms.py:41-68 | in a completed run, the visit of stock i at tick c succeeds from a non-zero lock, appends exactly the BUY and SELL entries its triggers and acceptances call for, and the final ledger keeps them |
| Algorithms.TenPercentBuysOnFall | finance/algorithms.py:43-49 | in a completed run, a price more than `percent` below the lock at the stock's turn, with the buy of int(cash * percent) accepted, puts that BUY at that tick and price in the final ledger |
| Algorithms.TenPercentSellsOnRise | finance/algorithms.py:53-57 | in a completed run, a price more than `percent` above the lock the buy branch left, with the sale of int(holding * percent) accepted, puts that SELL at that tick and price in the final ledger |
| Algorithms.TurnKeepsLock | finance/algorithms.py:42-44 | with distinct names, the lock a stock is tested against at its turn is the one the tick started with, since the stocks before it move only their own locks |
| Algorithms.StockLoopIdle | finance/algorithms.py:42-59 | when every price equals its lock and percent >= 0, a tick trades nothing |
| Algorithms.TickLoopIdle | finance/algorithms.py:41-61 | with prices that never move, the main loop trades nothing |
| Algorithms.SellOffIdle | finance/algorithms.py:63-67 | with nothing held, the sell-off trades nothing |
| Algorithms.FlatPricesNeverTrade | finance/algorithms.py:31-68 | with distinct names, positive prices that never move and percent >= 0, `TenPercent` returns the untouched fresh ledger |
| Scenarios.SeedOfSeries | finance/algorithms.py:36-38 | the five-price series seeds a lock of 100 |
| Scenarios.QuietStart | finance/algorithms.py:45-53 | at the lock, and 10% below it, a 10% threshold does not trade |
| Scenarios.BuyAtEighty | finance/algorithms.py:45-49 | 20% below a lock of 100 buys int(100 / 80) = 1 share at 80, and the lock moves to 90 |
| Scenarios.RefusedSells | finance/algorithms.py:53-59 | a rise above the lock calls for int(1 * 0.1) = 0 shares, which sell refuses, so nothing changes |
| Scenarios.MainLoop | finance/algorithms.py:41-61 | the main loop over the five prices ends at tick 5 holding the one share bought at 80, with the lock at 90 |
| Scenarios.FinalSellOff | finance/algorithms.py:63-67 | the sell-off after the last tick sells the one share at the last close, 120 |
| Scenarios.TenPercentOnFiveCloses | finance/algorithms.py:31-68 | `TenPercent` with 1000 in cash and a 10% threshold on prices 100, 90, 80, 110, 120 logs exactly a buy of 1 at 80 (tick 2) and a sell of 1 at 120 (tick 5), and ends with 1040 in cash |
| Scenarios.TenPercentDividesByZeroLock | finance/algorithms.py:36-45 | a stock whose first close is 0 seeds a zero lock, and `TenPercent` aborts with a division by zero |
| Scenarios.StrategiesNeedCloses | finance/algorithms.py:16-21 | on a stock with no Close column, both `TenPercent` and `A` abort with the missing-column error |
| Scenarios.SteadyKinds | finance/algorithms.py:19-24 | on 100 ticks the checkpoints in time order alternate buy, sell, starting with a buy |
| Scenarios.SteadyHop | finance/algorithms.py:18-27 | on a steady price of 10 with 100 in cash, `A`'s loop goes from one checkpoint to the next by one trade of 2 shares |
| Scenarios.SteadyRun | finance/algorithms.py:11-28 | `A` with 100 in cash on 100 ticks at a price of 10 completes at tick 100 with the ledger of its ten trades |
| Scenarios.AOnSteadyPrices | finance/algorithms.py:11-28 | that run logs ten trades of 2 shares at the ten checkpoints, a buy at each buy checkpoint and a sell at each sell checkpoint, and ends with 100 in cash and nothing held |

## Left out

- The controller, database, plotting and server modules: HTTP routing, Redis persistence, chart rendering and bootstrap are I/O outside the engine.
- `Stock.load_from_yahoo`, `Stock.toJSON` and `Stock.fromJSON`: a network download and pandas JSON serialisation. A series is given as a table value.
- `logging` and `print` calls: they have no effect on the result.
- IEEE floating point: prices, cash and amounts are exact reals. In particular, int(f * total) can differ from the exact floor when f * total rounds just below an integer (for total = 90, 0.7 * 90 evaluates to 62.99… in floating point). NaN and infinite prices do not exist in the model.
- The process-wide ticker: each run takes a ticker and returns the one it leaves. Sharing one ticker between concurrent runs is not modelled.
- `Symbols` and `Algos` in finance/enums.py: selection plumbing for the HTTP layer.
- Default arguments (`Portfolio(initial_cash=0.0, allow_short=False)`, `values(kind=ValueKind.Close)`): Dafny has no default arguments, so every caller passes these values explicitly; the strategies pass `false` for the short flag as the source does by default.
- Holdings keyed by stock object: the model keys holdings and locks by name, so two series objects with one name share a position.
- The default-dict side effect of `get_holding`: reading a stock never traded inserts a zero row, which would then appear in `holdings`. The model's reads do not change the ledger.
- Dictionary iteration order of `holdings`: the report is a map from name to row.
- The undefined `stock.value` and `stock.openings`: the model takes the current price to be the close at the clamped tick, and the series length to be the length of the Open column.
- Algorithms.A: every input is accepted and every abort is modelled, but non-negative cash at the end is promised only on positive closes with non-negative initial cash.
- Algorithms.TenPercent: every input is accepted and every abort is modelled, but completion is promised only on positive closes, and non-negative cash at the end only on positive closes with percent >= 0 and cash >= 0. A negative or zero price inside the series is handled (a zero lock aborts) but gets no further promise.

## Findings

| source | as written | input that shows it | evidently intended | confidence | as-written member | corrected member |
|---|---|---|---|---|---|---|
| finance/portfolio.py:57 | the no-short check reads `self.get_holding(stock)["quantity"]`, but `get_holding` returns a `Holdings` dataclass, which cannot be indexed with a key; every non-zero sell on a no-short ledger raises before the comparison | a no-short portfolio holding 5 shares that sells 1 share | compare the quantity with the holding's `quantity` field, refusing only a sale beyond the holding | not executed | Portfolios.SellAsWritten, Portfolios.SellAsWrittenRefusesCoveredSale | Portfolios.Sell, Portfolios.BuyThenSellRestores |

Both strategies run on a no-short ledger, so the as-written sell changes what they do. The following consequences are read off the code; no member of the model states them. `A` would abort at its first sell checkpoint, if its earlier buys succeed. `TenPercent` would swallow every sell, and its final sell-off would leave every holding in place. The model uses the corrected `Sell` throughout.

=== FILE: algorithms.dfy ===
/**
 * The two trading strategies (finance/algorithms.py). Each resets the ticker,
 * walks the series tick by tick and trades on a fresh no-short ledger; the
 * ticker and the ledger are threaded through the run as values.
 */
module Algorithms {
  import opened Wrappers
  import opened Tickers
  import opened Stocks
  import opened Transactions
  import opened Portfolios

  /** A finished run: the ledger and the ticker as the run left them. */
  datatype Run = Run(portfolio: Portfolio, ticker: Ticker)

  datatype RunError =
    | NoStocks                        // the strategy was given an empty list of stocks
    | LookupFailed(cause: StockError) // a price or length lookup the strategy does not catch failed
    | DivisionByZero                  // a relative move was measured against a zero lock
    | TradeFailed(error: TradeError)  // a trade the strategy does not catch was refused

  /** When, as fractions of the run, the fixed schedule buys and sells. */
  const BuyFractions: seq<real> := [0.05, 0.35, 0.65, 0.75, 0.95]
  const SellFractions: seq<real> := [0.25, 0.41, 0.70, 0.90, 0.99]

  /** The checkpoint ticks int(f * total), one per fraction f. */
  function Checkpoints(fractions: seq<real>, total: nat): (ticks: seq<int>)
    ensures |ticks| == |fractions|
    ensures forall i :: 0 <= i < |fractions| ==>
              ticks[i] as real <= fractions[i] * total as real < ticks[i] as real + 1.0
  {
    seq(|fractions|, i requires 0 <= i < |fractions| => (fractions[i] * total as real).Floor)
  }

  function BuyTicks(total: nat): seq<int>
  {
    Checkpoints(BuyFractions, total)
  }

  function SellTicks(total: nat): seq<int>
  {
    Checkpoints(SellFractions, total)
  }

  lemma FractionOfRun(f: real, total: nat)
    requires 0.0 <= f < 1.0
    ensures 0 <= (f * total as real).Floor
    ensures total > 0 ==> (f * total as real).Floor < total
  {
    if total > 0 {
      MulMono(total as real, 0.0, f);
      MulStrict(total as real, f, 1.0);
    }
  }

  /** Every checkpoint of a fraction in [0, 1) is a tick the run visits. */
  lemma CheckpointsInRun(fractions: seq<real>, total: nat)
    requires forall i :: 0 <= i < |fractions| ==> 0.0 <= fractions[i] < 1.0
    ensures forall c :: c in Checkpoints(fractions, total) ==> 0 <= c && (total > 0 ==> c < total)
  {
    var ticks := Checkpoints(fractions, total);
    forall c | c in ticks
      ensures 0 <= c && (total > 0 ==> c < total)
    {
      var i :| 0 <= i < |ticks| && ticks[i] == c;
      assert c == (fractions[i] * total as real).Floor;
      FractionOfRun(fractions[i], total);
    }
  }

  /** For a run of 100 ticks the schedule buys at 5, 35, 65, 75, 95 and sells at 25, 41, 70, 90, 99. */
  lemma ScheduleOfHundred()
    ensures BuyTicks(100) == [5, 35, 65, 75, 95]
    ensures SellTicks(100) == [25, 41, 70, 90, 99]
  {
  }

  /** The quantity of the most recent buy in a log, 0 before the first. */
  function LastBuyQuantity(log: seq<Transaction>): int
  {
    if |log| == 0 then 0
    else if log[|log| - 1].kind == BUY then log[|log| - 1].quantity
    else LastBuyQuantity(log[..|log| - 1])
  }

  /** Orders a run's trades: by tick, and within a tick a buy before a sell. */
  function Slot(t: Transaction): int
  {
    2 * t.tick + (if t.kind == BUY then 0 else 1)
  }

  /**
   * Entry `j` of a fixed-schedule log: a trade of the one stock at its close
   * then; a buy only at a buy checkpoint, of floor(cash / 5 / price) shares
   * (so, at a positive price, spending at most a fifth of the initial cash);
   * a sell only at a sell checkpoint and of exactly the latest bought quantity.
   */
  ghost predicate ScheduledEntry(log: seq<Transaction>, j: int, stock: Stock, cash: real, total: nat)
    requires 0 <= j < |log|
  {
    var e := log[j];
    && e.stockName == stock.name
    && e.amount == e.price * e.quantity as real
    && 0 <= e.tick && CloseAt(stock, e.tick) == Success(e.price)
    && (e.kind == BUY ==>
          && e.tick in BuyTicks(total)
          && e.price != 0.0 && e.quantity == (cash / 5.0 / e.price).Floor
          && (e.price > 0.0 ==> e.amount <= cash / 5.0))
    && (e.kind == SELL ==> e.tick in SellTicks(total) && e.quantity == LastBuyQuantity(log[..j]))
  }

  /**
   * A log the fixed schedule can produce: every entry scheduled, and strictly
   * increasing slots, so at most one buy and one sell per tick, the buy first.
   */
  ghost predicate FollowsSchedule(log: seq<Transaction>, stock: Stock, cash: real, total: nat)
  {
    && (forall j :: 0 <= j < |log| ==> ScheduledEntry(log, j, stock, cash, total))
    && (forall j, k :: 0 <= j < k < |log| ==> Slot(log[j]) < Slot(log[k]))
  }

  /** The log holds a trade of kind `kind` stamped `tick`. */
  ghost predicate Traded(log: seq<Transaction>, kind: TransactionType, tick: int)
  {
    exists j :: 0 <= j < |log| && log[j].kind == kind && log[j].tick == tick
  }

  lemma {:induction false} TradedKept(log: seq<Transaction>, log': seq<Transaction>, kind: TransactionType, tick: int)
    requires Traded(log, kind, tick)
    requires |log| <= |log'| && log'[..|log|] == log
    ensures Traded(log', kind, tick)
  {
    var j :| 0 <= j < |log| && log[j].kind == kind && log[j].tick == tick;
    assert log'[j] == log'[..|log|][j];
  }

  lemma {:induction false} AppendScheduled(log: seq<Transaction>, e: Transaction, stock: Stock, cash: real, total: nat)
    requires FollowsSchedule(log, stock, cash, total)
    requires ScheduledEntry(log + [e], |log|, stock, cash, total)
    requires forall j :: 0 <= j < |log| ==> Slot(log[j]) < Slot(e)
    ensures FollowsSchedule(log + [e], stock, cash, total)
  {
    var log' := log + [e];
    forall j | 0 <= j < |log'|
      ensures ScheduledEntry(log', j, stock, cash, total)
    {
      if j < |log| {
        assert log'[j] == log[j];
        assert log'[..j] == log[..j];
        assert ScheduledEntry(log, j, stock, cash, total);
      }
    }
  }

  lemma {:induction false} AppendStamped(log: seq<Transaction>, e: Transaction)
    requires 0 <= e.tick
    requires StampedBefore(log, e.tick + 1)
    ensures StampedBefore(log + [e], e.tick + 1)
  {
    var log' := log + [e];
    forall j | 0 <= j < |log'|
      ensures 0 <= log'[j].tick < e.tick + 1
    {
      if j < |log| {
        assert log'[j] == log[j];
      }
    }
    forall j, k | 0 <= j < k < |log'|
      ensures log'[j].tick <= log'[k].tick
    {
      assert log'[j] == log[j];
      if k < |log| {
        assert log'[k] == log[k];
      }
    }
  }

  /** A positive amount bought at a positive price buys a non-negative number of shares. */
  lemma NonNegShares(amount: real, price: real, q: int)
    requires price > 0.0 && amount >= 0.0
    requires amount < price * (q + 1) as real
    ensures q >= 0
  {
    if q < 0 {
      MulMono(price, (q + 1) as real, 0.0);
    }
  }

  /**
   * The buy branch of one tick of `A`: at a buy checkpoint, read the close and
   * buy a fifth of the initial cash worth; a failed lookup or a refused buy
   * aborts the run.
   */
  function BuyPhase(stock: Stock, cash: real, total: nat, tick: nat, q: int, p: Portfolio): (r: Result<Filled, RunError>)
    ensures tick !in BuyTicks(total) ==> r == Success(Filled(q, p))
    ensures tick in BuyTicks(total) && CloseAt(stock, tick).Failure? ==>
              r == Failure(LookupFailed(CloseAt(stock, tick).error))
    ensures tick in BuyTicks(total) && CloseAt(stock, tick).Success? ==>
              var price := CloseAt(stock, tick).value;
              && (r.Success? <==> BuyAmount(p, stock.name, cash / 5.0, price, tick).Success?)
              && (r.Failure? ==> r.error == TradeFailed(BuyAmount(p, stock.name, cash / 5.0, price, tick).error))
              && (r.Success? ==>
                    && price != 0.0
                    && r.value.quantity == (cash / 5.0 / price).Floor
                    && Records(p, r.value.portfolio, Trade(tick, BUY, stock.name, r.value.quantity, price))
                    && (price > 0.0 ==> price * r.value.quantity as real <= cash / 5.0))
    ensures r.Success? && PositiveCloses(stock) && cash >= 0.0 && p.cash >= 0.0 && q >= 0 ==>
              r.value.quantity >= 0 && r.value.portfolio.cash >= 0.0
    ensures r.Failure? && Quoted(stock) ==> r.error.TradeFailed?
  {
    if tick in BuyTicks(total) then
      match CloseAt(stock, tick)
      case Failure(e) => Failure(LookupFailed(e))
      case Success(price) =>
        match BuyAmount(p, stock.name, cash / 5.0, price, tick)
        case Success(f) =>
          assert PositiveCloses(stock) && cash >= 0.0 ==> f.quantity >= 0 by {
            if PositiveCloses(stock) && cash >= 0.0 {
              assert price == Price(stock, tick);
              NonNegShares(cash / 5.0, price, f.quantity);
            }
          }
          Success(f)
        case Failure(e) => Failure(TradeFailed(e))
    else Success(Filled(q, p))
  }

  /**
   * The sell branch of one tick of `A`: at a sell checkpoint, sell the latest
   * bought quantity at the close; a zero quantity, a failed lookup or a
   * refused sell aborts the run.
   */
  function SellPhase(stock: Stock, total: nat, tick: nat, q: int, p: Portfolio): (r: Result<Portfolio, RunError>)
    ensures tick !in SellTicks(total) ==> r == Success(p)
    ensures tick in SellTicks(total) && q == 0 ==> r == Failure(TradeFailed(ZeroQuantity))
    ensures tick in SellTicks(total) && q != 0 && CloseAt(stock, tick).Failure? ==>
              r == Failure(LookupFailed(CloseAt(stock, tick).error))
    ensures tick in SellTicks(total) && CloseAt(stock, tick).Success? ==>
              var price := CloseAt(stock, tick).value;
              && (r.Success? <==> Sell(p, stock.name, q, price, tick).Success?)
              && (r.Failure? ==> r.error == TradeFailed(Sell(p, stock.name, q, price, tick).error))
              && (r.Success? ==> Records(p, r.value, Trade(tick, SELL, stock.name, q, price)))
    ensures r.Success? && PositiveCloses(stock) && q >= 0 && p.cash >= 0.0 ==> r.value.cash >= 0.0
    ensures r.Failure? && Quoted(stock) ==> r.error.TradeFailed?
  {
    if tick in SellTicks(total) then
      if q == 0 then Failure(TradeFailed(ZeroQuantity))
      else
        match CloseAt(stock, tick)
        case Failure(e) => Failure(LookupFailed(e))
        case Success(price) =>
          assert PositiveCloses(stock) ==> price > 0.0 by {
            if PositiveCloses(stock) {
              assert price == Price(stock, tick);
            }
          }
          match Sell(p, stock.name, q, price, tick)
          case Success(p') => Success(p')
          case Failure(e) => Failure(TradeFailed(e))
    else Success(p)
  }

  /** The invariant of `A`'s loop at the start of tick `tick`. */
  ghost predicate AInvariant(stock: Stock, cash: real, total: nat, tick: nat, q: int, p: Portfolio)
  {
    && FollowsSchedule(p.transactions, stock, cash, total)
    && StampedBefore(p.transactions, tick)
    && q == LastBuyQuantity(p.transactions)
  }

  /** Half-way through tick `tick` of `A`: after the buy branch, before the sell branch. */
  ghost predicate AMidTick(stock: Stock, cash: real, total: nat, tick: nat, q: int, p: Portfolio)
  {
    && FollowsSchedule(p.transactions, stock, cash, total)
    && StampedBefore(p.transactions, tick + 1)
    && q == LastBuyQuantity(p.transactions)
    && forall j :: 0 <= j < |p.transactions| ==> Slot(p.transactions[j]) <= 2 * tick
  }

  /** A buy recorded at a buy checkpoint takes a log stamped before `tick` to the middle of tick `tick`. */
  lemma {:induction false} BuyKeepsMidTick(stock: Stock, cash: real, total: nat, tick: nat, p: Portfolio, p': Portfolio, e: Transaction)
    requires FollowsSchedule(p.transactions, stock, cash, total)
    requires StampedBefore(p.transactions, tick)
    requires Records(p, p', e)
    requires e.kind == BUY && e.tick == tick
    requires ScheduledEntry(p.transactions + [e], |p.transactions|, stock, cash, total)
    ensures AMidTick(stock, cash, total, tick, e.quantity, p')
  {
    var log := p.transactions;
    var log' := log + [e];
    assert p'.transactions == log';
    assert log'[..|log|] == log;
    assert forall j :: 0 <= j < |log| ==> Slot(log[j]) < 2 * tick;
    StampedWiden(log, tick, tick + 1);
    AppendScheduled(log, e, stock, cash, total);
    AppendStamped(log, e);
    forall j | 0 <= j < |log'|
      ensures Slot(log'[j]) <= 2 * tick
    {
      if j < |log| {
        assert log'[j] == log[j];
      }
    }
  }

  /** The buy branch replays onto the ledger and takes the loop invariant to the middle of the tick. */
  lemma {:induction false} BuyPhaseKeepsInvariant(stock: Stock, cash: real, total: nat, tick: nat, q: int, p: Portfolio)
    requires BuyPhase(stock, cash, total, tick, q, p).Success?
    ensures var b := BuyPhase(stock, cash, total, tick, q, p).value;
            && Replays(p, b.portfolio)
            && (AInvariant(stock, cash, total, tick, q, p) ==> AMidTick(stock, cash, total, tick, b.quantity, b.portfolio))
  {
    if tick in BuyTicks(total) {
      BuyCheckpointKeepsInvariant(stock, cash, total, tick, q, p);
    } else {
      ReplaysRefl(p);
      var log := p.transactions;
      if AInvariant(stock, cash, total, tick, q, p) {
        assert forall j :: 0 <= j < |log| ==> Slot(log[j]) < 2 * tick;
        StampedWiden(log, tick, tick + 1);
      }
    }
  }

  /** `BuyPhaseKeepsInvariant` at a buy checkpoint, where the BUY is recorded. */
  lemma {:induction false} BuyCheckpointKeepsInvariant(stock: Stock, cash: real, total: nat, tick: nat, q: int, p: Portfolio)
    requires BuyPhase(stock, cash, total, tick, q, p).Success? && tick in BuyTicks(total)
    ensures var b := BuyPhase(stock, cash, total, tick, q, p).value;
            && Replays(p, b.portfolio)
            && (AInvariant(stock, cash, total, tick, q, p) ==> AMidTick(stock, cash, total, tick, b.quantity, b.portfolio))
  {
    var b := BuyPhase(stock, cash, total, tick, q, p).value;
    var price := CloseAt(stock, tick).value;
    var e := Trade(tick, BUY, stock.name, b.quantity, price);
    RecordsReplays(p, b.portfolio, e);
    if AInvariant(stock, cash, total, tick, q, p) {
      assert ScheduledEntry(p.transactions + [e], |p.transactions|, stock, cash, total);
      BuyKeepsMidTick(stock, cash, total, tick, p, b.portfolio, e);
    }
  }

  /** The sell branch replays onto the ledger and, with the tick, restores the invariant for the next tick. */
  lemma {:induction false} SellPhaseKeepsInvariant(stock: Stock, cash: real, total: nat, tick: nat, q: int, p: Portfolio)
    requires SellPhase(stock, total, tick, q, p).Success?
    ensures var p' := SellPhase(stock, total, tick, q, p).value;
            && Replays(p, p')
            && (AMidTick(stock, cash, total, tick, q, p) ==> AInvariant(stock, cash, total, tick + 1, q, p'))
  {
    var p' := SellPhase(stock, total, tick, q, p).value;
    var log := p.transactions;
    if tick in SellTicks(total) {
      var e := Trade(tick, SELL, stock.name, q, CloseAt(stock, tick).value);
      RecordsReplays(p, p', e);
      if AMidTick(stock, cash, total, tick, q, p) {
        assert p'.transactions == log + [e];
        assert (log + [e])[..|log|] == log;
        AppendScheduled(log, e, stock, cash, total);
        AppendStamped(log, e);
        assert (log + [e])[..|log + [e]| - 1] == log;
      }
    } else {
      ReplaysRefl(p);
    }
  }

  /** A tick of `A` that completes leaves its checkpoint trades in every later log. */
  lemma {:induction false} TickCovered(stock: Stock, cash: real, total: nat, tick: nat, q: int, p: Portfolio, rp: Portfolio)
    requires BuyPhase(stock, cash, total, tick, q, p).Success?
    requires var b := BuyPhase(stock, cash, total, tick, q, p).value;
             SellPhase(stock, total, tick, b.quantity, b.portfolio).Success?
    requires var b := BuyPhase(stock, cash, total, tick, q, p).value;
             Replays(SellPhase(stock, total, tick, b.quantity, b.portfolio).value, rp)
    ensures tick in BuyTicks(total) ==> Traded(rp.transactions, BUY, tick)
    ensures tick in SellTicks(total) ==> Traded(rp.transactions, SELL, tick)
  {
    var b := BuyPhase(stock, cash, total, tick, q, p).value;
    var p' := SellPhase(stock, total, tick, b.quantity, b.portfolio).value;
    SellPhaseKeepsInvariant(stock, cash, total, tick, b.quantity, b.portfolio);
    ReplaysTrans(b.portfolio, p', rp);
    if tick in BuyTicks(total) {
      var n := |p.transactions|;
      assert b.portfolio.transactions[n].kind == BUY && b.portfolio.transactions[n].tick == tick;
      TradedKept(b.portfolio.transactions, rp.transactions, BUY, tick);
    }
    if tick in SellTicks(total) {
      var n := |b.portfolio.transactions|;
      assert p'.transactions[n].kind == SELL && p'.transactions[n].tick == tick;
      TradedKept(p'.transactions, rp.transactions, SELL, tick);
    }
  }

  /**
   * One tick of `A`'s loop followed by a completed rest of the run: what the
   * rest guarantees from tick `tick + 1` on, the tick extends to `tick`.
   */
  lemma {:induction false} TickThenRest(stock: Stock, cash: real, total: nat, tick: nat, q: int, p: Portfolio, rest: Run)
    requires BuyPhase(stock, cash, total, tick, q, p).Success?
    requires var b := BuyPhase(stock, cash, total, tick, q, p).value;
             SellPhase(stock, total, tick, b.quantity, b.portfolio).Success?
    requires var b := BuyPhase(stock, cash, total, tick, q, p).value;
             var p' := SellPhase(stock, total, tick, b.quantity, b.portfolio).value;
             && Replays(p', rest.portfolio)
             && (forall c :: tick + 1 <= c < total && c in BuyTicks(total) ==> Traded(rest.portfolio.transactions, BUY, c))
             && (forall c :: tick + 1 <= c < total && c in SellTicks(total) ==> Traded(rest.portfolio.transactions, SELL, c))
             && (AInvariant(stock, cash, total, tick + 1, b.quantity, p') ==>
                   && FollowsSchedule(rest.portfolio.transactions, stock, cash, total)
                   && StampedBefore(rest.portfolio.transactions, total))
             && (PositiveCloses(stock) && cash >= 0.0 && p'.cash >= 0.0 && b.quantity >= 0 ==>
                   rest.portfolio.cash >= 0.0)
    ensures Replays(p, rest.portfolio)
    ensures forall c :: tick <= c < total && c in BuyTicks(total) ==> Traded(rest.portfolio.transactions, BUY, c)
    ensures forall c :: tick <= c < total && c in SellTicks(total) ==> Traded(rest.portfolio.transactions, SELL, c)
    ensures AInvariant(stock, cash, total, tick, q, p) ==>
              && FollowsSchedule(rest.portfolio.transactions, stock, cash, total)
              && StampedBefore(rest.portfolio.transactions, total)
    ensures PositiveCloses(stock) && cash >= 0.0 && p.cash >= 0.0 && q >= 0 ==> rest.portfolio.cash >= 0.0
  {
    var b := BuyPhase(stock, cash, total, tick, q, p).value;
    var p' := SellPhase(stock, total, tick, b.quantity, b.portfolio).value;
    BuyPhaseKeepsInvariant(stock, cash, total, tick, q, p);
    SellPhaseKeepsInvariant(stock, cash, total, tick, b.quantity, b.portfolio);
    ReplaysTrans(p, b.portfolio, p');
    ReplaysTrans(p, p', rest.portfolio);
    TickCovered(stock, cash, total, tick, q, p, rest.portfolio);
  }

  /**
   * `A`'s loop from tick `t.value` to the end of the run. A completed loop has
   * made the trade of every checkpoint it passed; started in the invariant, its
   * log follows the schedule.
   */
  function ALoop(stock: Stock, cash: real, total: nat, t: Ticker, q: int, p: Portfolio): (r: Result<Run, RunError>)
    requires 0 <= t.value <= total
    ensures r.Success? ==> r.value.ticker.value == total && Replays(p, r.value.portfolio)
    ensures r.Success? ==>
              forall c :: t.value <= c < total && c in BuyTicks(total) ==> Traded(r.value.portfolio.transactions, BUY, c)
    ensures r.Success? ==>
              forall c :: t.value <= c < total && c in SellTicks(total) ==> Traded(r.value.portfolio.transactions, SELL, c)
    ensures r.Success? && AInvariant(stock, cash, total, t.value, q, p) ==>
              && FollowsSchedule(r.value.portfolio.transactions, stock, cash, total)
              && StampedBefore(r.value.portfolio.transactions, total)
    ensures r.Success? && PositiveCloses(stock) && cash >= 0.0 && p.cash >= 0.0 && q >= 0 ==>
              r.value.portfolio.cash >= 0.0
    ensures r.Failure? && Quoted(stock) ==> r.error.TradeFailed?
    decreases total - t.value
  {
    if t.value == total then
      ReplaysRefl(p);
      Success(Run(p, t))
    else
      var tick: nat := t.value;
      match BuyPhase(stock, cash, total, tick, q, p)
      case Failure(e) => Failure(e)
      case Success(b) =>
        match SellPhase(stock, total, tick, b.quantity, b.portfolio)
        case Failure(e) => Failure(e)
        case Success(p') =>
          match ALoop(stock, cash, total, Tick(t), b.quantity, p')
          case Failure(e) => Failure(e)
          case Success(rest) =>
            TickThenRest(stock, cash, total, tick, q, p, rest);
            Success(rest)
  }

  /**
   * Strategy `A`: on the first stock only, buy a fifth of the initial cash
   * worth at each buy checkpoint and sell the latest bought quantity at each
   * sell checkpoint; any failed lookup or refused trade aborts the run.
   */
  function A(cash: real, stocks: seq<Stock>, t: Ticker): (r: Result<Run, RunError>)
    ensures |stocks| == 0 ==> r == Failure(NoStocks)
    ensures |stocks| > 0 && OpenColname !in stocks[0].frame ==> r == Failure(LookupFailed(MissingColumn(OpenColname)))
    ensures |stocks| > 0 && OpenColname in stocks[0].frame && Length(stocks[0]) > 0 && !Quoted(stocks[0]) ==>
              r == Failure(LookupFailed(CloseAt(stocks[0], 0).error))
    ensures |stocks| > 0 && OpenColname in stocks[0].frame && Quoted(stocks[0]) && r.Failure? ==> r.error.TradeFailed?
    ensures |stocks| > 0 && OpenColname in stocks[0].frame && Length(stocks[0]) == 0 ==> r.Success?
    ensures r.Success? ==> |stocks| > 0 && OpenColname in stocks[0].frame
    ensures r.Success? ==>
              var total, p := Length(stocks[0]), r.value.portfolio;
              && r.value.ticker.value == total
              && !p.allowShort
              && FollowsSchedule(p.transactions, stocks[0], cash, total)
              && StampedBefore(p.transactions, total)
              && Audited(p, cash)
              && (forall c :: c in BuyTicks(total) && c < total ==> Traded(p.transactions, BUY, c))
              && (forall c :: c in SellTicks(total) && c < total ==> Traded(p.transactions, SELL, c))
              && (cash >= 0.0 && PositiveCloses(stocks[0]) ==> p.cash >= 0.0)
  {
    if |stocks| == 0 then Failure(NoStocks)
    else if OpenColname !in stocks[0].frame then Failure(LookupFailed(MissingColumn(OpenColname)))
    else
      var total := Length(stocks[0]);
      var p := Portfolios.New(cash, false);
      var r := ALoop(stocks[0], cash, total, Reset(t), 0, p);
      ALoopWithoutCloses(stocks[0], cash, total, Reset(t), 0, p);
      if r.Success? then
        NewIsAudited(cash, false);
        ReplaysKeepAudit(p, r.value.portfolio, cash);
        CheckpointsInRun(BuyFractions, total);
        CheckpointsInRun(SellFractions, total);
        r
      else r
  }

  /** No checkpoint comes before the first buy checkpoint. */
  lemma FirstBuyIsEarliest(total: nat)
    ensures forall c :: c in BuyTicks(total) || c in SellTicks(total) ==> BuyTicks(total)[0] <= c
  {
    var first := 0.05 * total as real;
    forall c | c in BuyTicks(total) || c in SellTicks(total)
      ensures BuyTicks(total)[0] <= c
    {
      var fractions := if c in BuyTicks(total) then BuyFractions else SellFractions;
      var i :| 0 <= i < |fractions| && Checkpoints(fractions, total)[i] == c;
      if total > 0 {
        MulMono(total as real, 0.05, fractions[i]);
      }
      assert first <= fractions[i] * total as real;
    }
  }

  /** A tick of `A`'s loop whose two branches both succeed hands over to the next tick. */
  lemma ALoopTick(stock: Stock, cash: real, total: nat, t: Ticker, q: int, p: Portfolio, b: Filled, p': Portfolio)
    requires 0 <= t.value < total
    requires BuyPhase(stock, cash, total, t.value, q, p) == Success(b)
    requires SellPhase(stock, total, t.value, b.quantity, b.portfolio) == Success(p')
    ensures ALoop(stock, cash, total, t, q, p) == ALoop(stock, cash, total, Tick(t), b.quantity, p')
  {
  }

  /** Between checkpoints, `A`'s loop only ticks. */
  lemma {:induction false} ALoopSkip(stock: Stock, cash: real, total: nat, t: Ticker, q: int, p: Portfolio, stop: nat)
    requires 0 <= t.value <= stop <= total
    requires forall c :: c in BuyTicks(total) || c in SellTicks(total) ==> !(t.value <= c < stop)
    ensures ALoop(stock, cash, total, t, q, p) == ALoop(stock, cash, total, Ticker(stop), q, p)
    decreases stop - t.value
  {
    if t.value < stop {
      ALoopSkip(stock, cash, total, Tick(t), q, p, stop);
    }
  }

  /**
   * `A` catches nothing: when a fifth of the initial cash is below the price at
   * the first buy checkpoint, that buy is of zero shares and the run aborts.
   */
  lemma AAbortsOnUnaffordableBuy(cash: real, stocks: seq<Stock>, t: Ticker)
    requires |stocks| > 0 && OpenColname in stocks[0].frame && Length(stocks[0]) > 0 && Quoted(stocks[0])
    requires 0.0 <= cash / 5.0 < Price(stocks[0], BuyTicks(Length(stocks[0]))[0])
    ensures A(cash, stocks, t) == Failure(TradeFailed(ZeroQuantity))
  {
    var stock, total := stocks[0], Length(stocks[0]);
    var first := BuyTicks(total)[0];
    CheckpointsInRun(BuyFractions, total);
    FirstBuyIsEarliest(total);
    assert first in BuyTicks(total);
    var p := Portfolios.New(cash, false);
    ALoopSkip(stock, cash, total, Reset(t), 0, p, first);
    assert BuyPhase(stock, cash, total, first, 0, p) == Failure(TradeFailed(ZeroQuantity));
  }

  /**
   * On a non-empty run of a stock whose Close column is missing or empty, the
   * loop started at tick 0 aborts at the first buy checkpoint with that lookup's error.
   */
  lemma ALoopWithoutCloses(stock: Stock, cash: real, total: nat, t: Ticker, q: int, p: Portfolio)
    requires t.value == 0
    ensures 0 < total && !Quoted(stock) ==>
              ALoop(stock, cash, total, t, q, p) == Failure(LookupFailed(CloseAt(stock, 0).error))
  {
    if 0 < total && !Quoted(stock) {
      var first := BuyTicks(total)[0];
      CheckpointsInRun(BuyFractions, total);
      FirstBuyIsEarliest(total);
      assert first in BuyTicks(total);
      ALoopSkip(stock, cash, total, t, q, p, first);
      assert CloseAt(stock, first) == CloseAt(stock, 0);
    }
  }

  /**
   * One tick of `A`'s loop: the buy branch, then the sell branch on what the
   * buy branch left. The first branch that fails aborts the tick with its error.
   */
  function ATick(stock: Stock, cash: real, total: nat, tick: nat, f: Filled): (r: Result<Filled, RunError>)
    ensures r.Success? ==> Replays(f.portfolio, r.value.portfolio)
    ensures r.Success? && AInvariant(stock, cash, total, tick, f.quantity, f.portfolio) ==>
              AInvariant(stock, cash, total, tick + 1, r.value.quantity, r.value.portfolio)
    ensures r.Failure? ==> tick in BuyTicks(total) || tick in SellTicks(total)
    ensures r.Failure? && Quoted(stock) ==> r.error.TradeFailed?
  {
    match BuyPhase(stock, cash, total, tick, f.quantity, f.portfolio)
    case Failure(e) => Failure(e)
    case Success(b) =>
      match SellPhase(stock, total, tick, b.quantity, b.portfolio)
      case Failure(e) => Failure(e)
      case Success(p') =>
        BuyPhaseKeepsInvariant(stock, cash, total, tick, f.quantity, f.portfolio);
        SellPhaseKeepsInvariant(stock, cash, total, tick, b.quantity, b.portfolio);
        ReplaysTrans(f.portfolio, b.portfolio, p');
        Success(Filled(b.quantity, p'))
  }

  /**
   * The state `A` reaches at the start of tick `c` on its first stock: the
   * quantity it last bought and its ledger, or the error of the tick that
   * aborted the run before `c`.
   */
  function AStart(stock: Stock, cash: real, total: nat, c: nat): (r: Result<Filled, RunError>)
    requires c <= total
    ensures r.Success? ==> Replays(Portfolios.New(cash, false), r.value.portfolio)
    decreases c
  {
    if c == 0 then
      ReplaysRefl(Portfolios.New(cash, false));
      Success(Filled(0, Portfolios.New(cash, false)))
    else
      match AStart(stock, cash, total, c - 1)
      case Failure(e) => Failure(e)
      case Success(f) =>
        var r := ATick(stock, cash, total, c - 1, f);
        if r.Success? then
          ReplaysTrans(Portfolios.New(cash, false), f.portfolio, r.value.portfolio);
          r
        else r
  }

  /** At the start of every tick it reaches, `A` holds its loop invariant: a scheduled, time-ordered log. */
  lemma {:induction false} AStartInvariant(stock: Stock, cash: real, total: nat, c: nat)
    requires c <= total && AStart(stock, cash, total, c).Success?
    ensures var f := AStart(stock, cash, total, c).value;
            AInvariant(stock, cash, total, c, f.quantity, f.portfolio)
  {
    if c > 0 {
      AStartInvariant(stock, cash, total, c - 1);
    }
  }

  /** `A`'s loop started at tick 0 is, at any tick `c`, the loop resumed from `AStart` at `c`, or its abort. */
  lemma {:induction false} ALoopResumes(stock: Stock, cash: real, total: nat, c: nat)
    requires c <= total
    ensures AStart(stock, cash, total, c).Success? ==>
              var f := AStart(stock, cash, total, c).value;
              ALoop(stock, cash, total, Ticker(0), 0, Portfolios.New(cash, false)) == ALoop(stock, cash, total, Ticker(c), f.quantity, f.portfolio)
    ensures AStart(stock, cash, total, c).Failure? ==>
              ALoop(stock, cash, total, Ticker(0), 0, Portfolios.New(cash, false)) == Failure(AStart(stock, cash, total, c).error)
  {
    if c > 0 {
      ALoopResumes(stock, cash, total, c - 1);
      var prev := AStart(stock, cash, total, c - 1);
      if prev.Success? {
        ALoopOneTick(stock, cash, total, c - 1, prev.value);
        assert AStart(stock, cash, total, c) == ATick(stock, cash, total, c - 1, prev.value);
      } else {
        assert AStart(stock, cash, total, c) == prev;
      }
    }
  }

  /** One tick of `A`'s loop from tick `c`: `ATick`, then the loop from tick `c + 1`, or the tick's abort. */
  lemma ALoopOneTick(stock: Stock, cash: real, total: nat, c: nat, f: Filled)
    requires c < total
    ensures ALoop(stock, cash, total, Ticker(c), f.quantity, f.portfolio) ==
              match ATick(stock, cash, total, c, f)
              case Success(g) => ALoop(stock, cash, total, Ticker(c + 1), g.quantity, g.portfolio)
              case Failure(e) => Failure(e)
  {
  }


  /** Tick `c` of `A`'s loop is reached without an abort, and one of its two branches fails. */
  ghost predicate AbortsAt(stock: Stock, cash: real, total: nat, c: int)
  {
    && 0 <= c < total
    && AStart(stock, cash, total, c).Success?
    && ATick(stock, cash, total, c, AStart(stock, cash, total, c).value).Failure?
  }

  /** Once `A` has aborted it stays aborted, with the same error. */
  lemma {:induction false} AStartStaysFailed(stock: Stock, cash: real, total: nat, c: nat, n: nat)
    requires c <= n <= total && AStart(stock, cash, total, c).Failure?
    ensures AStart(stock, cash, total, n) == AStart(stock, cash, total, c)
    decreases n - c
  {
    if c < n {
      AStartStaysFailed(stock, cash, total, c, n - 1);
    }
  }

  /** An abort before tick `n` is the failure of one tick before `n`, reached without an abort. */
  lemma {:induction false} AStartFailsAt(stock: Stock, cash: real, total: nat, n: nat)
    requires n <= total && AStart(stock, cash, total, n).Failure?
    ensures exists c :: 0 <= c < n && AbortsAt(stock, cash, total, c)
                        && ATick(stock, cash, total, c, AStart(stock, cash, total, c).value) == AStart(stock, cash, total, n)
  {
    if AStart(stock, cash, total, n - 1).Failure? {
      AStartFailsAt(stock, cash, total, n - 1);
    }
  }

  /** `A` has aborted by tick `n` exactly when a tick before `n` aborted it, and with that tick's error. */
  lemma {:induction false} AStartAborts(stock: Stock, cash: real, total: nat, n: nat)
    requires n <= total
    ensures AStart(stock, cash, total, n).Failure? <==> exists c :: 0 <= c < n && AbortsAt(stock, cash, total, c)
    ensures forall c :: 0 <= c < n && AbortsAt(stock, cash, total, c) ==>
              AStart(stock, cash, total, n) == ATick(stock, cash, total, c, AStart(stock, cash, total, c).value)
  {
    if AStart(stock, cash, total, n).Failure? {
      AStartFailsAt(stock, cash, total, n);
    }
    forall c | 0 <= c < n && AbortsAt(stock, cash, total, c)
      ensures AStart(stock, cash, total, n) == ATick(stock, cash, total, c, AStart(stock, cash, total, c).value)
    {
      AStartStaysFailed(stock, cash, total, c + 1, n);
    }
  }

  /**
   * `A`'s loop from tick 0 catches nothing and aborts on nothing else: it fails
   * exactly when some tick before the end, reached from the ticks before it,
   * has a buy or sell branch that fails, and then with that branch's error;
   * when it completes, it ends with the ledger of the last tick.
   */
  lemma {:induction false} ALoopAbortsExactly(stock: Stock, cash: real, total: nat)
    ensures var run := ALoop(stock, cash, total, Ticker(0), 0, Portfolios.New(cash, false));
            run.Failure? <==> exists c :: 0 <= c < total && AbortsAt(stock, cash, total, c)
    ensures var run := ALoop(stock, cash, total, Ticker(0), 0, Portfolios.New(cash, false));
            forall c :: 0 <= c < total && AbortsAt(stock, cash, total, c) ==>
              run == Failure(ATick(stock, cash, total, c, AStart(stock, cash, total, c).value).error)
    ensures var run := ALoop(stock, cash, total, Ticker(0), 0, Portfolios.New(cash, false));
            run.Success? ==>
              AStart(stock, cash, total, total).Success? && run.value.portfolio == AStart(stock, cash, total, total).value.portfolio
  {
    ALoopResumes(stock, cash, total, total);
    AStartAborts(stock, cash, total, total);
  }

  /** On a first stock with an Open column, `A` is its loop from tick 0 on a fresh no-short ledger. */
  lemma AIsLoop(cash: real, stocks: seq<Stock>, t: Ticker)
    requires |stocks| > 0 && OpenColname in stocks[0].frame
    ensures A(cash, stocks, t) == ALoop(stocks[0], cash, Length(stocks[0]), Ticker(0), 0, Portfolios.New(cash, false))
  {
  }

  /**
   * `A` catches nothing and aborts on nothing else: on a first stock with an
   * Open column it fails exactly when some tick before the end has a buy or
   * sell branch that fails, and then with that branch's error.
   */
  lemma {:induction false} AAbortsExactly(cash: real, stocks: seq<Stock>, t: Ticker)
    requires |stocks| > 0 && OpenColname in stocks[0].frame
    ensures var s, total := stocks[0], Length(stocks[0]);
            A(cash, stocks, t).Failure? <==> exists c :: 0 <= c < total && AbortsAt(s, cash, total, c)
    ensures var s, total := stocks[0], Length(stocks[0]);
            forall c :: 0 <= c < total && AbortsAt(s, cash, total, c) ==>
              A(cash, stocks, t) == Failure(ATick(s, cash, total, c, AStart(s, cash, total, c).value).error)
    ensures var s, total := stocks[0], Length(stocks[0]);
            A(cash, stocks, t).Success? ==>
              AStart(s, cash, total, total).Success? && A(cash, stocks, t).value.portfolio == AStart(s, cash, total, total).value.portfolio
  {
    AIsLoop(cash, stocks, t);
    ALoopAbortsExactly(stocks[0], cash, Length(stocks[0]));
  }

  /** Python's int() on a float: truncation toward zero. */
  function Trunc(x: real): (n: int)
    ensures 0.0 <= x ==> 0 <= n && n as real <= x < n as real + 1.0
    ensures x < 0.0 ==> n <= 0 && n as real - 1.0 < x <= n as real
  {
    if x >= 0.0 then x.Floor else -((-x).Floor)
  }

  /** The lock re-pricing: the midpoint of the old lock and the current price. */
  function Blend(lp: real, cp: real): (r: real)
    ensures r - lp == cp - r
    ensures lp <= r <= cp || cp <= r <= lp
    ensures r == lp <==> cp == lp
  {
    0.5 * lp + 0.5 * cp
  }

  /** Every listed stock has a lock. */
  ghost predicate Locked(stocks: seq<Stock>, locks: map<string, real>)
  {
    forall i :: 0 <= i < |stocks| ==> stocks[i].name in locks
  }

  /** Every listed stock has a positive lock. */
  ghost predicate LocksReady(stocks: seq<Stock>, locks: map<string, real>)
  {
    forall i :: 0 <= i < |stocks| ==> stocks[i].name in locks && locks[stocks[i].name] > 0.0
  }

  /** Every listed stock has a readable current price. */
  ghost predicate AllQuoted(stocks: seq<Stock>)
  {
    forall i :: 0 <= i < |stocks| ==> Quoted(stocks[i])
  }

  /** Every listed stock's closes are all strictly positive. */
  ghost predicate AllPositive(stocks: seq<Stock>)
  {
    forall i :: 0 <= i < |stocks| ==> PositiveCloses(stocks[i])
  }

  /** No later stock in the list carries the same name as stock `i`. */
  ghost predicate LastOfName(stocks: seq<Stock>, i: int)
    requires 0 <= i < |stocks|
  {
    forall j :: i < j < |stocks| ==> stocks[j].name != stocks[i].name
  }

  /** A list seen as its front and its last stock. */
  lemma {:induction false} SplitLast(stocks: seq<Stock>)
    requires |stocks| > 0
    ensures var init := stocks[..|stocks| - 1];
            && (forall i :: 0 <= i < |init| ==> init[i] == stocks[i] && init[..i] == stocks[..i])
            && (AllQuoted(stocks) <==> AllQuoted(init) && Quoted(stocks[|stocks| - 1]))
            && (AllPositive(stocks) ==> AllPositive(init))
  {
    var init := stocks[..|stocks| - 1];
    if AllQuoted(init) && Quoted(stocks[|stocks| - 1]) {
      forall i | 0 <= i < |stocks|
        ensures Quoted(stocks[i])
      {
        if i < |init| {
          assert init[i] == stocks[i];
        }
      }
    }
    if AllPositive(stocks) {
      forall i | 0 <= i < |init|
        ensures PositiveCloses(init[i])
      {
        assert init[i] == stocks[i];
      }
    }
  }

  /** Assigning the last stock's lock on top of the locks of the ones before it. */
  lemma {:induction false} SeedLast(stocks: seq<Stock>, locks: map<string, real>)
    requires AllQuoted(stocks) && |stocks| > 0
    requires var init := stocks[..|stocks| - 1];
             && Locked(init, locks)
             && (AllPositive(init) ==> LocksReady(init, locks))
             && forall i :: 0 <= i < |init| && LastOfName(init, i) ==> locks[init[i].name] == Price(init[i], 0)
    ensures var last := stocks[|stocks| - 1];
            var locks' := locks[last.name := Price(last, 0)];
            && Locked(stocks, locks')
            && (AllPositive(stocks) ==> LocksReady(stocks, locks'))
            && forall i :: 0 <= i < |stocks| && LastOfName(stocks, i) ==> locks'[stocks[i].name] == Price(stocks[i], 0)
  {
    var init := stocks[..|stocks| - 1];
    var last := stocks[|stocks| - 1];
    var locks' := locks[last.name := Price(last, 0)];
    SplitLast(stocks);
    forall i | 0 <= i < |stocks|
      ensures stocks[i].name in locks'
      ensures AllPositive(stocks) ==> locks'[stocks[i].name] > 0.0
      ensures LastOfName(stocks, i) ==> locks'[stocks[i].name] == Price(stocks[i], 0)
    {
      if i < |init| {
        assert init[i] == stocks[i];
        if LastOfName(stocks, i) {
          assert stocks[i].name != last.name;
          assert LastOfName(init, i) by {
            forall j | i < j < |init|
              ensures init[j].name != init[i].name
            {
              assert init[j] == stocks[j];
            }
          }
        }
      }
    }
  }

  /**
   * The initial locks: each stock's price at tick 0, read in list order, so for
   * a name listed twice the later stock's price is the one kept. The first
   * stock whose price cannot be read stops the seeding with that lookup's error.
   */
  function SeedLocks(stocks: seq<Stock>): (r: Result<map<string, real>, StockError>)
    ensures r.Success? <==> AllQuoted(stocks)
    ensures r.Failure? ==>
              exists i :: 0 <= i < |stocks| && AllQuoted(stocks[..i]) && CloseAt(stocks[i], 0) == Failure(r.error)
    ensures r.Success? ==> Locked(stocks, r.value)
    ensures r.Success? ==>
              forall i :: 0 <= i < |stocks| && LastOfName(stocks, i) ==> r.value[stocks[i].name] == Price(stocks[i], 0)
    ensures r.Success? && AllPositive(stocks) ==> LocksReady(stocks, r.value)
  {
    if |stocks| == 0 then Success(map[])
    else
      var init, last := stocks[..|stocks| - 1], stocks[|stocks| - 1];
      SplitLast(stocks);
      match SeedLocks(init)
      case Failure(e) => Failure(e)
      case Success(locks) =>
        match CloseAt(last, 0)
        case Failure(e) =>
          assert stocks[..|stocks| - 1] == init;
          Failure(e)
        case Success(v) =>
          SeedLast(stocks, locks);
          Success(locks[last.name := v])
  }

  /** A no-short ledger whose cash and holdings are all non-negative. */
  ghost predicate Solvent(p: Portfolio)
  {
    && !p.allowShort
    && p.cash >= 0.0
    && forall name :: Quantity(p, name) >= 0
  }

  /** The lock of one stock, and the ledger, after one branch of a tick. */
  datatype Leg = Leg(portfolio: Portfolio, lock: real)

  /** The money the buy branch spends: int(cash * percent). */
  function BuyBudget(p: Portfolio, percent: real): real
  {
    Trunc(p.cash * percent) as real
  }

  /** The quantity the sell branch sells: int(holding * percent). */
  function SellQuantity(p: Portfolio, name: string, percent: real): int
  {
    Trunc(Quantity(p, name) as real * percent)
  }

  lemma MulNonNeg(a: real, b: real)
    requires a >= 0.0 && b >= 0.0
    ensures a * b >= 0.0
  {
  }

  /** A buy of a non-negative amount at a positive price buys a non-negative number of shares. */
  lemma BoughtShares(p: Portfolio, name: string, amount: real, price: real, tick: nat)
    requires amount >= 0.0 && price > 0.0
    requires BuyAmount(p, name, amount, price, tick).Success?
    ensures BuyAmount(p, name, amount, price, tick).value.quantity >= 0
  {
    var q := BuyAmount(p, name, amount, price, tick).value.quantity;
    NonNegShares(amount, price, q);
  }

  /**
   * The buy branch: when the price has fallen more than `percent` below the
   * lock, buy int(cash * percent) worth and, only if that succeeds, move the
   * lock halfway to the price; a refused buy changes nothing.
   */
  function BuyLeg(name: string, percent: real, tick: nat, cp: real, p: Portfolio, lp: real): (r: Leg)
    requires lp != 0.0
    ensures lp > 0.0 && cp > 0.0 ==> r.lock > 0.0
    ensures (lp - cp) / lp <= percent ==> r == Leg(p, lp)
    ensures r == Leg(p, lp) || r.portfolio.transactions != p.transactions
    ensures r.portfolio.transactions != p.transactions <==>
              (lp - cp) / lp > percent && BuyAmount(p, name, BuyBudget(p, percent), cp, tick).Success?
    ensures r.portfolio.transactions != p.transactions ==>
              && r.lock == Blend(lp, cp)
              && Records(p, r.portfolio, Trade(tick, BUY, name, (BuyBudget(p, percent) / cp).Floor, cp))
    ensures percent >= 0.0 && cp > 0.0 && Solvent(p) ==> Solvent(r.portfolio)
  {
    if (lp - cp) / lp > percent then
      var budget := BuyBudget(p, percent);
      var bought := BuyAmount(p, name, budget, cp, tick);
      if bought.Success? then
        var f := bought.value;
        assert percent >= 0.0 && cp > 0.0 && p.cash >= 0.0 ==> f.quantity >= 0 by {
          if percent >= 0.0 && cp > 0.0 && p.cash >= 0.0 {
            MulNonNeg(p.cash, percent);
            BoughtShares(p, name, budget, cp, tick);
          }
        }
        Leg(f.portfolio, Blend(lp, cp))
      else Leg(p, lp)
    else Leg(p, lp)
  }

  /**
   * The sell branch: when the price has risen more than `percent` above the
   * lock, sell int(holding * percent) shares and, only if that succeeds, move
   * the lock halfway to the price; a refused sell changes nothing.
   */
  function SellLeg(name: string, percent: real, tick: nat, cp: real, p: Portfolio, lp: real): (r: Leg)
    requires lp != 0.0
    ensures lp > 0.0 && cp > 0.0 ==> r.lock > 0.0
    ensures (cp - lp) / lp <= percent ==> r == Leg(p, lp)
    ensures r == Leg(p, lp) || r.portfolio.transactions != p.transactions
    ensures r.portfolio.transactions != p.transactions <==>
              (cp - lp) / lp > percent && Sell(p, name, SellQuantity(p, name, percent), cp, tick).Success?
    ensures r.portfolio.transactions != p.transactions ==>
              && r.lock == Blend(lp, cp)
              && Records(p, r.portfolio, Trade(tick, SELL, name, SellQuantity(p, name, percent), cp))
    ensures percent >= 0.0 && cp > 0.0 && Solvent(p) ==> Solvent(r.portfolio)
  {
    if (cp - lp) / lp > percent then
      match Sell(p, name, SellQuantity(p, name, percent), cp, tick)
      case Success(p') =>
        assert percent >= 0.0 && Solvent(p) ==> SellQuantity(p, name, percent) >= 0 by {
          if percent >= 0.0 && Solvent(p) {
            MulNonNeg(Quantity(p, name) as real, percent);
          }
        }
        Leg(p', Blend(lp, cp))
      case Failure(_) => Leg(p, lp)
    else Leg(p, lp)
  }

  /** The ledger and the locks while `TenPercent` runs. */
  datatype State = State(portfolio: Portfolio, locks: map<string, real>)

  lemma StampedWiden(log: seq<Transaction>, bound: int, bound': int)
    requires bound <= bound'
    ensures StampedBefore(log, bound) ==> StampedBefore(log, bound')
  {
  }

  /** A branch that either left the ledger alone or recorded one trade at `tick`. */
  lemma {:induction false} LegStep(p: Portfolio, p': Portfolio, t: Transaction, tick: nat)
    requires p' == p || (Records(p, p', t) && t.tick == tick)
    ensures Replays(p, p')
    ensures StampedBefore(p.transactions, tick + 1) ==> StampedBefore(p'.transactions, tick + 1)
  {
    if p' == p {
      ReplaysRefl(p);
    } else {
      RecordsReplays(p, p', t);
      if StampedBefore(p.transactions, tick + 1) {
        AppendStamped(p.transactions, t);
      }
    }
  }

  /** Dividing by a positive number keeps the sign. */
  lemma QuotientSign(x: real, y: real)
    requires y > 0.0
    ensures x / y > 0.0 <==> x > 0.0
    ensures x / y < 0.0 <==> x < 0.0
  {
  }

  /**
   * After a triggered buy with a non-negative threshold, the price lies below
   * the blended lock, so the sell test against that lock cannot fire.
   */
  lemma NoSellAfterBuy(lp: real, cp: real, percent: real)
    requires lp != 0.0
    ensures lp > 0.0 && cp > 0.0 && percent >= 0.0 && (lp - cp) / lp > percent ==>
              Blend(lp, cp) > 0.0 && (cp - Blend(lp, cp)) / Blend(lp, cp) <= percent
  {
    if lp > 0.0 && cp > 0.0 && percent >= 0.0 && (lp - cp) / lp > percent {
      var b := Blend(lp, cp);
      QuotientSign(lp - cp, lp);
      QuotientSign(cp - b, b);
    }
  }

  /**
   * What the two branches of a tick do together to one stock, with `lp` the
   * lock before and `cp` the price: at most a buy and then a sell are appended;
   * a buy only on a fall of more than `percent` below `lp`; a sell first only
   * on a rise of more than `percent` above `lp`, and then alone; a sell after a
   * buy only on a rise of more than `percent` above the blended lock; the lock
   * is blended once per appended trade, and nothing changes when nothing is
   * appended.
   */
  ghost predicate TickOutcome(lp: real, cp: real, percent: real, p: Portfolio, p': Portfolio, lock': real)
  {
    var log, log' := p.transactions, p'.transactions;
    && |log| <= |log'| <= |log| + 2
    && (|log'| == |log| ==> p' == p && lock' == lp)
    && (|log'| > |log| && log'[|log|].kind == BUY ==> lp != 0.0 && (lp - cp) / lp > percent)
    && (|log'| > |log| && log'[|log|].kind == SELL ==>
          lp != 0.0 && (cp - lp) / lp > percent && |log'| == |log| + 1)
    && (|log'| == |log| + 1 ==> lock' == Blend(lp, cp))
    && (|log'| == |log| + 2 ==>
          && log'[|log|].kind == BUY && log'[|log| + 1].kind == SELL
          && Blend(lp, cp) != 0.0 && (cp - Blend(lp, cp)) / Blend(lp, cp) > percent
          && lock' == Blend(Blend(lp, cp), cp))
    && (percent >= 0.0 && lp > 0.0 && cp > 0.0 ==> |log'| <= |log| + 1)
  }

  /**
   * The trades one stock makes at one tick, both ways round, with `lp` the lock
   * before and `cp` the price. The buy branch appends a BUY of
   * floor(int(cash * percent) / cp) shares exactly when the price fell more
   * than `percent` below `lp` and that buy is accepted, and then blends the
   * lock. The sell branch, tested against the lock the buy branch left,
   * appends a SELL of int(holding * percent) shares exactly when the price
   * rose more than `percent` above that lock and the sale is accepted, and
   * then blends the lock again. Nothing else is appended.
   */
  ghost predicate TickTrades(name: string, percent: real, tick: nat, cp: real, lp: real, p: Portfolio, p': Portfolio, lock': real)
  {
    lp != 0.0 &&
    var b := BuyLeg(name, percent, tick, cp, p, lp);
    var buys := (lp - cp) / lp > percent && BuyAmount(p, name, BuyBudget(p, percent), cp, tick).Success?;
    var sells := b.lock != 0.0 && (cp - b.lock) / b.lock > percent
                 && Sell(b.portfolio, name, SellQuantity(b.portfolio, name, percent), cp, tick).Success?;
    && b.portfolio.transactions ==
         p.transactions + (if buys then [Trade(tick, BUY, name, (BuyBudget(p, percent) / cp).Floor, cp)] else [])
    && b.lock == (if buys then Blend(lp, cp) else lp)
    && p'.transactions ==
         b.portfolio.transactions + (if sells then [Trade(tick, SELL, name, SellQuantity(b.portfolio, name, percent), cp)] else [])
    && lock' == (if sells then Blend(b.lock, cp) else b.lock)
  }

  /**
   * The sell branch of a tick fires and is accepted: after the buy branch,
   * the price stands more than `percent` above the lock it left, and the
   * sale of int(holding * percent) shares goes through.
   */
  ghost predicate SellTriggered(name: string, percent: real, tick: nat, cp: real, lp: real, p: Portfolio)
  {
    lp != 0.0 &&
    var b := BuyLeg(name, percent, tick, cp, p, lp);
    && b.lock != 0.0 && (cp - b.lock) / b.lock > percent
    && Sell(b.portfolio, name, SellQuantity(b.portfolio, name, percent), cp, tick).Success?
  }

  /** A log entry of one stock's step at one tick: that stock, that tick, its price then. */
  ghost predicate StepEntry(s: Stock, tick: nat, e: Transaction)
    requires Quoted(s)
  {
    e.tick == tick && e.stockName == s.name && e.price == Price(s, tick)
  }

  /** The two branches of a tick, composed: which trades they append, and what those entries carry. */
  lemma {:induction false} LegsTrade(s: Stock, percent: real, tick: nat, p: Portfolio, lp: real)
    requires Quoted(s)
    requires lp != 0.0 && BuyLeg(s.name, percent, tick, Price(s, tick), p, lp).lock != 0.0
    ensures var cp := Price(s, tick);
            var b := BuyLeg(s.name, percent, tick, cp, p, lp);
            var c := SellLeg(s.name, percent, tick, cp, b.portfolio, b.lock);
            && TickTrades(s.name, percent, tick, cp, lp, p, c.portfolio, c.lock)
            && forall j :: |p.transactions| <= j < |c.portfolio.transactions| ==> StepEntry(s, tick, c.portfolio.transactions[j])
  {
    var cp := Price(s, tick);
    var b := BuyLeg(s.name, percent, tick, cp, p, lp);
    var c := SellLeg(s.name, percent, tick, cp, b.portfolio, b.lock);
    var log := p.transactions;
    forall j | |log| <= j < |c.portfolio.transactions|
      ensures StepEntry(s, tick, c.portfolio.transactions[j])
    {
      if j < |b.portfolio.transactions| {
        assert c.portfolio.transactions[j] == b.portfolio.transactions[j];
      }
    }
  }

  /** Everything one stock's two branches at one tick do to the ledger and to its lock. */
  ghost predicate StepOutcome(s: Stock, percent: real, tick: nat, lp: real, p: Portfolio, p': Portfolio, lock': real)
    requires Quoted(s)
  {
    && Replays(p, p')
    && (StampedBefore(p.transactions, tick + 1) ==> StampedBefore(p'.transactions, tick + 1))
    && TickOutcome(lp, Price(s, tick), percent, p, p', lock')
    && TickTrades(s.name, percent, tick, Price(s, tick), lp, p, p', lock')
    && (forall j :: |p.transactions| <= j < |p'.transactions| ==> StepEntry(s, tick, p'.transactions[j]))
  }

  /** The two branches of a tick, composed, as `StepOutcome` states them. */
  lemma {:induction false} LegsOutcome(s: Stock, percent: real, tick: nat, p: Portfolio, lp: real)
    requires Quoted(s)
    requires lp != 0.0 && BuyLeg(s.name, percent, tick, Price(s, tick), p, lp).lock != 0.0
    ensures var cp := Price(s, tick);
            var b := BuyLeg(s.name, percent, tick, cp, p, lp);
            var c := SellLeg(s.name, percent, tick, cp, b.portfolio, b.lock);
            StepOutcome(s, percent, tick, lp, p, c.portfolio, c.lock)
  {
    LegsCompose(s.name, percent, tick, Price(s, tick), p, lp);
    LegsTrade(s, percent, tick, p, lp);
  }

  /** The two branches of a tick, composed: the ledger relation, the stamping and the outcome of the tick. */
  lemma {:induction false} LegsCompose(name: string, percent: real, tick: nat, cp: real, p: Portfolio, lp: real)
    requires lp != 0.0 && BuyLeg(name, percent, tick, cp, p, lp).lock != 0.0
    ensures var b := BuyLeg(name, percent, tick, cp, p, lp);
            var c := SellLeg(name, percent, tick, cp, b.portfolio, b.lock);
            && Replays(p, c.portfolio)
            && (StampedBefore(p.transactions, tick + 1) ==> StampedBefore(c.portfolio.transactions, tick + 1))
            && TickOutcome(lp, cp, percent, p, c.portfolio, c.lock)
  {
    var b := BuyLeg(name, percent, tick, cp, p, lp);
    var c := SellLeg(name, percent, tick, cp, b.portfolio, b.lock);
    var log := p.transactions;
    if b.portfolio.transactions != log {
      LegStep(p, b.portfolio, Trade(tick, BUY, name, (BuyBudget(p, percent) / cp).Floor, cp), tick);
    } else {
      ReplaysRefl(p);
    }
    if c.portfolio.transactions != b.portfolio.transactions {
      LegStep(b.portfolio, c.portfolio, Trade(tick, SELL, name, SellQuantity(b.portfolio, name, percent), cp), tick);
    } else {
      ReplaysRefl(b.portfolio);
    }
    ReplaysTrans(p, b.portfolio, c.portfolio);
    NoSellAfterBuy(lp, cp, percent);
    if b.portfolio.transactions != log {
      assert b.portfolio.transactions[|log|].kind == BUY;
      if c.portfolio.transactions != b.portfolio.transactions {
        assert c.portfolio.transactions[|log|] == b.portfolio.transactions[|log|];
      }
    }
  }

  /** The two branches of a tick keep a positive lock and a solvent ledger, and do nothing at the lock's price. */
  lemma {:induction false} LegsKeep(name: string, percent: real, tick: nat, cp: real, p: Portfolio, lp: real)
    requires lp != 0.0 && BuyLeg(name, percent, tick, cp, p, lp).lock != 0.0
    ensures var b := BuyLeg(name, percent, tick, cp, p, lp);
            var c := SellLeg(name, percent, tick, cp, b.portfolio, b.lock);
            && (lp > 0.0 && cp > 0.0 ==> c.lock > 0.0)
            && (percent >= 0.0 && cp > 0.0 && Solvent(p) ==> Solvent(c.portfolio))
            && (percent >= 0.0 && cp == lp ==> c == Leg(p, lp))
  {
  }

  /**
   * One stock at one tick of `TenPercent`: the buy branch, then the sell
   * branch against the lock the buy branch may just have moved. A zero lock
   * at either test is a division by zero, which the strategy does not catch.
   */
  function Step(s: Stock, percent: real, tick: nat, st: State): (r: Result<State, RunError>)
    requires Quoted(s) && s.name in st.locks
    ensures st.locks[s.name] == 0.0 ==> r == Failure(DivisionByZero)
    ensures r.Failure? <==>
              || st.locks[s.name] == 0.0
              || BuyLeg(s.name, percent, tick, Price(s, tick), st.portfolio, st.locks[s.name]).lock == 0.0
    ensures r.Failure? ==> r.error == DivisionByZero
    ensures r.Success? ==>
              && r.value.locks.Keys == st.locks.Keys
              && (forall name :: name in st.locks && name != s.name ==> r.value.locks[name] == st.locks[name])
              && StepOutcome(s, percent, tick, st.locks[s.name], st.portfolio, r.value.portfolio, r.value.locks[s.name])
    ensures PositiveCloses(s) && st.locks[s.name] > 0.0 ==> r.Success? && r.value.locks[s.name] > 0.0
    ensures r.Success? && percent >= 0.0 && PositiveCloses(s) && Solvent(st.portfolio) ==> Solvent(r.value.portfolio)
    ensures percent >= 0.0 && st.locks[s.name] != 0.0 && Price(s, tick) == st.locks[s.name] ==> r == Success(st)
  {
    var cp := Price(s, tick);
    var lp := st.locks[s.name];
    if lp == 0.0 then Failure(DivisionByZero)
    else
      var b := BuyLeg(s.name, percent, tick, cp, st.portfolio, lp);
      if b.lock == 0.0 then Failure(DivisionByZero)
      else
        var c := SellLeg(s.name, percent, tick, cp, b.portfolio, b.lock);
        var locks := st.locks[s.name := c.lock];
        LegsOutcome(s, percent, tick, st.portfolio, lp);
        LegsKeep(s.name, percent, tick, cp, st.portfolio, lp);
        assert locks.Keys == st.locks.Keys && locks[s.name] == c.lock;
        assert percent >= 0.0 && cp == lp ==> locks == st.locks;
        Success(State(c.portfolio, locks))
  }

  /** A trade of a listed stock (index `k` on) at that stock's price at the entry's tick. */
  ghost predicate ListedTrade(stocks: seq<Stock>, k: int, e: Transaction)
  {
    && 0 <= e.tick
    && exists i :: 0 <= k <= i < |stocks| && stocks[i].name == e.stockName
                   && Quoted(stocks[i]) && e.price == Price(stocks[i], e.tick)
  }

  /** Every entry `p'` logged after `p`'s last one is a `ListedTrade`, stamped `tick` when one is given. */
  ghost predicate NewEntriesListed(stocks: seq<Stock>, k: int, p: Portfolio, p': Portfolio)
  {
    forall j :: |p.transactions| <= j < |p'.transactions| ==> ListedTrade(stocks, k, p'.transactions[j])
  }

  /** Every entry `p'` logged after `p`'s last one is stamped `tick`. */
  ghost predicate NewEntriesAt(p: Portfolio, p': Portfolio, tick: int)
  {
    forall j :: |p.transactions| <= j < |p'.transactions| ==> p'.transactions[j].tick == tick
  }

  /** Some entry `p'` logged after `p`'s last one trades `name`. */
  ghost predicate TradedSince(p: Portfolio, p': Portfolio, name: string)
  {
    exists j :: |p.transactions| <= j < |p'.transactions| && p'.transactions[j].stockName == name
  }

  /** No lock moved from `locks` to `locks'` unless its stock traded between `p` and `p'`. */
  ghost predicate LocksFollowTrades(locks: map<string, real>, locks': map<string, real>, p: Portfolio, p': Portfolio)
  {
    forall name :: name in locks && name in locks' && locks'[name] != locks[name] ==> TradedSince(p, p', name)
  }

  /** A trade logged between `p` and `p'` is still logged between `p` and any replay `p''` of `p'`. */
  lemma TradedSinceKept(p: Portfolio, p': Portfolio, p'': Portfolio, name: string)
    requires Replays(p, p') && Replays(p', p'')
    ensures TradedSince(p, p', name) || TradedSince(p', p'', name) ==> TradedSince(p, p'', name)
  {
    if TradedSince(p, p', name) {
      var j :| |p.transactions| <= j < |p'.transactions| && p'.transactions[j].stockName == name;
      assert p''.transactions[j] == p''.transactions[..|p'.transactions|][j];
    }
  }

  /** The entry and lock facts of two consecutive stretches of a run compose. */
  lemma {:induction false} TradesCompose(stocks: seq<Stock>, k: int, tick: int, p: Portfolio, p': Portfolio, p'': Portfolio,
                                         locks: map<string, real>, locks': map<string, real>, locks'': map<string, real>)
    requires Replays(p, p') && Replays(p', p'')
    requires locks'.Keys == locks.Keys && locks''.Keys == locks.Keys
    requires NewEntriesListed(stocks, k, p, p') && NewEntriesListed(stocks, k, p', p'')
    requires LocksFollowTrades(locks, locks', p, p') && LocksFollowTrades(locks', locks'', p', p'')
    ensures NewEntriesListed(stocks, k, p, p'')
    ensures NewEntriesAt(p, p', tick) && NewEntriesAt(p', p'', tick) ==> NewEntriesAt(p, p'', tick)
    ensures LocksFollowTrades(locks, locks'', p, p'')
  {
    var n, n' := |p.transactions|, |p'.transactions|;
    forall j | n <= j < n'
      ensures p''.transactions[j] == p'.transactions[j]
    {
      assert p''.transactions[j] == p''.transactions[..n'][j];
    }
    forall name | name in locks && name in locks'' && locks''[name] != locks[name]
      ensures TradedSince(p, p'', name)
    {
      TradedSinceKept(p, p', p'', name);
    }
  }

  /** The entries of one `Step` trade the stepped stock at its price, and its lock moves only when it traded. */
  lemma {:induction false} StepTrades(stocks: seq<Stock>, k: nat, percent: real, tick: nat, st: State, st': State)
    requires AllQuoted(stocks) && k < |stocks| && Locked(stocks, st.locks)
    requires Step(stocks[k], percent, tick, st) == Success(st')
    ensures NewEntriesListed(stocks, k, st.portfolio, st'.portfolio)
    ensures NewEntriesAt(st.portfolio, st'.portfolio, tick)
    ensures LocksFollowTrades(st.locks, st'.locks, st.portfolio, st'.portfolio)
  {
    var s, p, p' := stocks[k], st.portfolio, st'.portfolio;
    assert StepOutcome(s, percent, tick, st.locks[s.name], p, p', st'.locks[s.name]);
    forall j | |p.transactions| <= j < |p'.transactions|
      ensures ListedTrade(stocks, k, p'.transactions[j])
    {
      assert StepEntry(s, tick, p'.transactions[j]);
    }
    if st'.locks[s.name] != st.locks[s.name] {
      assert StepEntry(s, tick, p'.transactions[|p.transactions|]);
    }
  }

  /** What the stock loop's entries from index `k + 1` on satisfy, they satisfy from index `k` on. */
  lemma ListedWiden(stocks: seq<Stock>, k: nat, p: Portfolio, p': Portfolio)
    requires NewEntriesListed(stocks, k + 1, p, p')
    ensures NewEntriesListed(stocks, k, p, p')
  {
    forall j | |p.transactions| <= j < |p'.transactions|
      ensures ListedTrade(stocks, k, p'.transactions[j])
    {
      assert ListedTrade(stocks, k + 1, p'.transactions[j]);
    }
  }

  /**
   * What one pass over the stocks from index `k` on does to the ledger and the
   * locks: every new entry trades one of those stocks at this tick's price, no
   * lock of another name moves, and a lock moves only when its stock traded.
   */
  ghost predicate PassTrades(stocks: seq<Stock>, k: int, tick: int, st: State, r: State)
  {
    && r.locks.Keys == st.locks.Keys
    && NewEntriesListed(stocks, k, st.portfolio, r.portfolio)
    && NewEntriesAt(st.portfolio, r.portfolio, tick)
    && LocksFollowTrades(st.locks, r.locks, st.portfolio, r.portfolio)
    && (forall name :: name in st.locks && !Listed(stocks, k, name) ==> r.locks[name] == st.locks[name])
  }

  /** One `Step` keeps every listed stock locked, and keeps positive locks positive on positive prices. */
  lemma {:induction false} StepKeepsLocks(stocks: seq<Stock>, k: nat, percent: real, tick: nat, st: State)
    requires AllQuoted(stocks) && k < |stocks| && Locked(stocks, st.locks)
    ensures Step(stocks[k], percent, tick, st).Success? ==> Locked(stocks, Step(stocks[k], percent, tick, st).value.locks)
    ensures AllPositive(stocks) && LocksReady(stocks, st.locks) ==>
              && Step(stocks[k], percent, tick, st).Success?
              && LocksReady(stocks, Step(stocks[k], percent, tick, st).value.locks)
  {
    var r := Step(stocks[k], percent, tick, st);
    if r.Success? {
      forall i | 0 <= i < |stocks|
        ensures stocks[i].name in r.value.locks
        ensures AllPositive(stocks) && LocksReady(stocks, st.locks) ==> r.value.locks[stocks[i].name] > 0.0
      {
        assert stocks[i].name in st.locks;
      }
    }
  }

  /** One `Step` followed by the rest of the tick: what the rest guarantees from `k + 1` on, the step extends to `k`. */
  lemma {:induction false} StepThenRest(stocks: seq<Stock>, k: nat, percent: real, tick: nat, st: State, st': State, r: State)
    requires AllQuoted(stocks) && k < |stocks| && Locked(stocks, st.locks)
    requires Step(stocks[k], percent, tick, st) == Success(st')
    requires Replays(st'.portfolio, r.portfolio)
    requires StampedBefore(st'.portfolio.transactions, tick + 1) ==> StampedBefore(r.portfolio.transactions, tick + 1)
    requires percent >= 0.0 && AllPositive(stocks) && Solvent(st'.portfolio) ==> Solvent(r.portfolio)
    ensures Replays(st.portfolio, r.portfolio)
    ensures StampedBefore(st.portfolio.transactions, tick + 1) ==> StampedBefore(r.portfolio.transactions, tick + 1)
    ensures percent >= 0.0 && AllPositive(stocks) && Solvent(st.portfolio) ==> Solvent(r.portfolio)
  {
    ReplaysTrans(st.portfolio, st'.portfolio, r.portfolio);
    assert AllPositive(stocks) ==> PositiveCloses(stocks[k]);
  }

  /** One `Step` followed by the rest of the tick: the rest's `PassTrades` from `k + 1` on extend to `k`. */
  lemma {:induction false} StepThenRestTrades(stocks: seq<Stock>, k: nat, percent: real, tick: nat, st: State, st': State, r: State)
    requires AllQuoted(stocks) && k < |stocks| && Locked(stocks, st.locks)
    requires Step(stocks[k], percent, tick, st) == Success(st')
    requires Replays(st'.portfolio, r.portfolio)
    requires PassTrades(stocks, k + 1, tick, st', r)
    ensures PassTrades(stocks, k, tick, st, r)
  {
    StepTrades(stocks, k, percent, tick, st, st');
    ListedWiden(stocks, k, st'.portfolio, r.portfolio);
    TradesCompose(stocks, k, tick, st.portfolio, st'.portfolio, r.portfolio, st.locks, st'.locks, r.locks);
    forall name | name in st.locks && !Listed(stocks, k, name)
      ensures r.locks[name] == st.locks[name]
    {
      assert name != stocks[k].name;
      assert !Listed(stocks, k + 1, name);
    }
  }

  /** The stocks from index `k` on, in list order, at one tick. */
  function StockLoop(stocks: seq<Stock>, k: nat, percent: real, tick: nat, st: State): (r: Result<State, RunError>)
    requires AllQuoted(stocks) && k <= |stocks| && Locked(stocks, st.locks)
    ensures r.Failure? ==> r.error == DivisionByZero
    ensures r.Success? ==>
              && Locked(stocks, r.value.locks)
              && Replays(st.portfolio, r.value.portfolio)
              && (StampedBefore(st.portfolio.transactions, tick + 1) ==>
                    StampedBefore(r.value.portfolio.transactions, tick + 1))
    ensures AllPositive(stocks) && LocksReady(stocks, st.locks) ==> r.Success? && LocksReady(stocks, r.value.locks)
    ensures r.Success? && percent >= 0.0 && AllPositive(stocks) && Solvent(st.portfolio) ==>
              Solvent(r.value.portfolio)
    decreases |stocks| - k
  {
    if k == |stocks| then
      ReplaysRefl(st.portfolio);
      Success(st)
    else
      StepKeepsLocks(stocks, k, percent, tick, st);
      match Step(stocks[k], percent, tick, st)
      case Failure(e) => Failure(e)
      case Success(st') =>
        match StockLoop(stocks, k + 1, percent, tick, st')
        case Failure(e) => Failure(e)
        case Success(r) =>
          StepThenRest(stocks, k, percent, tick, st, st', r);
          Success(r)
  }

  /** A pass over no stocks changes nothing. */
  lemma PassTradesRefl(stocks: seq<Stock>, k: int, tick: int, st: State)
    requires k >= |stocks|
    ensures PassTrades(stocks, k, tick, st, st)
  {
  }

  /** A completed pass from index `k < |stocks|` is a completed `Step` of stock `k` and then a completed pass from `k + 1`. */
  lemma StockLoopUnfold(stocks: seq<Stock>, k: nat, percent: real, tick: nat, st: State)
    requires AllQuoted(stocks) && k < |stocks| && Locked(stocks, st.locks)
    requires StockLoop(stocks, k, percent, tick, st).Success?
    ensures Step(stocks[k], percent, tick, st).Success?
    ensures Locked(stocks, Step(stocks[k], percent, tick, st).value.locks)
    ensures StockLoop(stocks, k + 1, percent, tick, Step(stocks[k], percent, tick, st).value)
            == StockLoop(stocks, k, percent, tick, st)
  {
    StepKeepsLocks(stocks, k, percent, tick, st);
  }

  /**
   * A pass over the stocks from index `k` on trades only those stocks, at this
   * tick and at their price, and moves a lock only when its stock traded.
   */
  lemma {:induction false} StockLoopTrades(stocks: seq<Stock>, k: nat, percent: real, tick: nat, st: State, r: State)
    requires AllQuoted(stocks) && k <= |stocks| && Locked(stocks, st.locks)
    requires StockLoop(stocks, k, percent, tick, st) == Success(r)
    ensures PassTrades(stocks, k, tick, st, r)
    decreases |stocks| - k, 1
  {
    if k == |stocks| {
      PassTradesRefl(stocks, k, tick, st);
    } else {
      StockLoopUnfold(stocks, k, percent, tick, st);
      StepThenPassTrades(stocks, k, percent, tick, st, Step(stocks[k], percent, tick, st).value, r);
    }
  }

  /** The inductive step of `StockLoopTrades`: the step of stock `k`, then the pass from `k + 1`. */
  lemma {:induction false} StepThenPassTrades(stocks: seq<Stock>, k: nat, percent: real, tick: nat, st: State, st': State, r: State)
    requires AllQuoted(stocks) && k < |stocks| && Locked(stocks, st.locks) && Locked(stocks, st'.locks)
    requires Step(stocks[k], percent, tick, st) == Success(st')
    requires StockLoop(stocks, k + 1, percent, tick, st') == Success(r)
    ensures PassTrades(stocks, k, tick, st, r)
    decreases |stocks| - k, 0
  {
    StockLoopTrades(stocks, k + 1, percent, tick, st', r);
    StepThenRestTrades(stocks, k, percent, tick, st, st', r);
  }

  /** The state of `TenPercent` once its main loop has ended, with the ticker. */
  datatype Progress = Progress(state: State, ticker: Ticker)

  /** One tick over all stocks followed by the rest of the run: the rest's guarantees extend to the tick. */
  lemma {:induction false} TickThenLoop(stocks: seq<Stock>, percent: real, total: nat, tick: nat, st: State, st': State, r: Progress)
    requires AllQuoted(stocks) && Locked(stocks, st.locks) && tick < total
    requires StockLoop(stocks, 0, percent, tick, st) == Success(st')
    requires Replays(st'.portfolio, r.state.portfolio)
    requires StampedBefore(st'.portfolio.transactions, tick + 1) ==> StampedBefore(r.state.portfolio.transactions, total)
    requires percent >= 0.0 && AllPositive(stocks) && Solvent(st'.portfolio) ==> Solvent(r.state.portfolio)
    ensures Replays(st.portfolio, r.state.portfolio)
    ensures StampedBefore(st.portfolio.transactions, tick) ==> StampedBefore(r.state.portfolio.transactions, total)
    ensures percent >= 0.0 && AllPositive(stocks) && Solvent(st.portfolio) ==> Solvent(r.state.portfolio)
  {
    ReplaysTrans(st.portfolio, st'.portfolio, r.state.portfolio);
    StampedWiden(st.portfolio.transactions, tick, tick + 1);
  }

  /** The main loop of `TenPercent`, from tick `t.value` to the end of the run. */
  function TickLoop(stocks: seq<Stock>, percent: real, total: nat, t: Ticker, st: State): (r: Result<Progress, RunError>)
    requires AllQuoted(stocks) && Locked(stocks, st.locks)
    requires 0 <= t.value <= total
    ensures r.Failure? ==> r.error == DivisionByZero
    ensures r.Success? ==>
              && r.value.ticker.value == total
              && Locked(stocks, r.value.state.locks)
              && Replays(st.portfolio, r.value.state.portfolio)
              && (StampedBefore(st.portfolio.transactions, t.value) ==>
                    StampedBefore(r.value.state.portfolio.transactions, total))
    ensures AllPositive(stocks) && LocksReady(stocks, st.locks) ==>
              r.Success? && LocksReady(stocks, r.value.state.locks)
    ensures r.Success? && percent >= 0.0 && AllPositive(stocks) && Solvent(st.portfolio) ==>
              Solvent(r.value.state.portfolio)
    decreases total - t.value
  {
    if t.value == total then
      ReplaysRefl(st.portfolio);
      Success(Progress(st, t))
    else
      match StockLoop(stocks, 0, percent, t.value, st)
      case Failure(e) => Failure(e)
      case Success(st') =>
        match TickLoop(stocks, percent, total, Tick(t), st')
        case Failure(e) => Failure(e)
        case Success(r) =>
          TickThenLoop(stocks, percent, total, t.value, st, st', r);
          Success(r)
  }

  /**
   * What the main loop does to the ledger and the locks: every new entry
   * trades a listed stock at that stock's price at the entry's tick, and a
   * lock moves only when its stock traded.
   */
  ghost predicate RunTrades(stocks: seq<Stock>, st: State, r: State)
  {
    && r.locks.Keys == st.locks.Keys
    && NewEntriesListed(stocks, 0, st.portfolio, r.portfolio)
    && LocksFollowTrades(st.locks, r.locks, st.portfolio, r.portfolio)
  }

  /** The main loop from tick `t.value` on trades only listed stocks, at their prices, and moves a lock only with a trade. */
  lemma {:induction false} TickLoopTrades(stocks: seq<Stock>, percent: real, total: nat, t: Ticker, st: State)
    requires AllQuoted(stocks) && Locked(stocks, st.locks)
    requires 0 <= t.value <= total
    ensures TickLoop(stocks, percent, total, t, st).Success? ==>
              RunTrades(stocks, st, TickLoop(stocks, percent, total, t, st).value.state)
    decreases total - t.value
  {
    var r := TickLoop(stocks, percent, total, t, st);
    if r.Success? {
      if t.value == total {
        assert r.value.state == st;
      } else {
        var st' := StockLoop(stocks, 0, percent, t.value, st).value;
        assert TickLoop(stocks, percent, total, Tick(t), st') == r;
        StockLoopTrades(stocks, 0, percent, t.value, st, st');
        TickLoopTrades(stocks, percent, total, Tick(t), st');
        TradesCompose(stocks, 0, t.value, st.portfolio, st'.portfolio, r.value.state.portfolio,
                      st.locks, st'.locks, r.value.state.locks);
      }
    }
  }

  /** The stocks before index `i` are quoted and locked when all are. */
  lemma PrefixLocked(stocks: seq<Stock>, i: nat, locks: map<string, real>)
    requires AllQuoted(stocks) && Locked(stocks, locks) && i <= |stocks|
    ensures AllQuoted(stocks[..i]) && Locked(stocks[..i], locks)
  {
  }

  /** A completed pass from index `k` is the pass over `stocks[..i]` followed by the pass from index `i`. */
  lemma {:induction false} StockLoopSplit(stocks: seq<Stock>, k: nat, i: nat, percent: real, tick: nat, st: State)
    requires AllQuoted(stocks) && k <= i <= |stocks| && Locked(stocks, st.locks)
    requires StockLoop(stocks, k, percent, tick, st).Success?
    ensures StockLoop(stocks[..i], k, percent, tick, st).Success?
    ensures var m := StockLoop(stocks[..i], k, percent, tick, st).value;
            && Locked(stocks, m.locks)
            && StockLoop(stocks, i, percent, tick, m) == StockLoop(stocks, k, percent, tick, st)
    decreases i - k
  {
    PrefixLocked(stocks, i, st.locks);
    if k < i {
      StockLoopUnfold(stocks, k, percent, tick, st);
      var st' := Step(stocks[k], percent, tick, st).value;
      StockLoopSplit(stocks, k + 1, i, percent, tick, st');
      assert stocks[..i][k] == stocks[k];
      StockLoopStepped(stocks[..i], k, percent, tick, st, st');
    }
  }

  /** A pass whose step at index `k` succeeds continues from index `k + 1` with that step's state. */
  lemma StockLoopStepped(stocks: seq<Stock>, k: nat, percent: real, tick: nat, st: State, st': State)
    requires AllQuoted(stocks) && k < |stocks| && Locked(stocks, st.locks)
    requires Step(stocks[k], percent, tick, st) == Success(st')
    ensures Locked(stocks, st'.locks)
    ensures StockLoop(stocks, k, percent, tick, st) == StockLoop(stocks, k + 1, percent, tick, st')
  {
    StepKeepsLocks(stocks, k, percent, tick, st);
  }

  /** A completed main loop up to `total` is the loop up to `c` followed by the loop from `c`. */
  lemma {:induction false} TickLoopSplit(stocks: seq<Stock>, percent: real, total: nat, c: nat, t: Ticker, st: State)
    requires AllQuoted(stocks) && Locked(stocks, st.locks) && 0 <= t.value <= c <= total
    requires TickLoop(stocks, percent, total, t, st).Success?
    ensures TickLoop(stocks, percent, c, t, st).Success?
    ensures TickLoop(stocks, percent, total, Ticker(c), TickLoop(stocks, percent, c, t, st).value.state)
            == TickLoop(stocks, percent, total, t, st)
    decreases c - t.value
  {
    if t.value < c {
      var st' := StockLoop(stocks, 0, percent, t.value, st).value;
      assert TickLoop(stocks, percent, total, t, st) == TickLoop(stocks, percent, total, Tick(t), st');
      assert TickLoop(stocks, percent, c, t, st) == TickLoop(stocks, percent, c, Tick(t), st');
      TickLoopSplit(stocks, percent, total, c, Tick(t), st');
    } else {
      assert t == Ticker(c);
    }
  }

  /** Some listed stock carries `name`. */
  ghost predicate Listed(stocks: seq<Stock>, k: int, name: string)
  {
    exists i :: k <= i < |stocks| && 0 <= i && stocks[i].name == name
  }

  /** A trade of the final sell-off: a sell at `tick`, at the price then of a listed stock of that name. */
  ghost predicate SellOffEntry(stocks: seq<Stock>, tick: nat, e: Transaction)
  {
    && e.kind == SELL
    && e.tick == tick
    && exists i :: 0 <= i < |stocks| && stocks[i].name == e.stockName
                   && Quoted(stocks[i]) && e.price == Price(stocks[i], tick)
  }

  /** One sale of the final sell-off: the stock's whole holding, or nothing when the sale is refused. */
  function SellAll(s: Stock, tick: nat, p: Portfolio): (p': Portfolio)
    requires Quoted(s)
    ensures Quantity(p', s.name) == 0
    ensures forall name :: name != s.name ==> Quantity(p', name) == Quantity(p, name)
    ensures p' == p || Records(p, p', Trade(tick, SELL, s.name, Quantity(p, s.name), Price(s, tick)))
    ensures Solvent(p) && PositiveCloses(s) ==> Solvent(p')
  {
    match Sell(p, s.name, Quantity(p, s.name), Price(s, tick), tick)
    case Success(p') => p'
    case Failure(_) => p
  }

  /** The sell-off's guarantees for index `k` on, from one sale and the guarantees for `k + 1` on. */
  lemma {:induction false} SellOffCompose(stocks: seq<Stock>, k: nat, tick: nat, p: Portfolio, p': Portfolio, r: Portfolio)
    requires AllQuoted(stocks) && k < |stocks|
    requires p' == SellAll(stocks[k], tick, p)
    requires forall i :: k + 1 <= i < |stocks| ==> Quantity(r, stocks[i].name) == 0
    requires forall name :: !Listed(stocks, k + 1, name) ==> Quantity(r, name) == Quantity(p', name)
    requires Replays(p', r)
    requires StampedBefore(p'.transactions, tick + 1) ==> StampedBefore(r.transactions, tick + 1)
    requires Solvent(p') && AllPositive(stocks) ==> Solvent(r)
    requires forall j :: |p'.transactions| <= j < |r.transactions| ==> SellOffEntry(stocks, tick, r.transactions[j])
    ensures forall i :: k <= i < |stocks| ==> Quantity(r, stocks[i].name) == 0
    ensures forall name :: !Listed(stocks, k, name) ==> Quantity(r, name) == Quantity(p, name)
    ensures Replays(p, r)
    ensures StampedBefore(p.transactions, tick + 1) ==> StampedBefore(r.transactions, tick + 1)
    ensures Solvent(p) && AllPositive(stocks) ==> Solvent(r)
    ensures forall j :: |p.transactions| <= j < |r.transactions| ==> SellOffEntry(stocks, tick, r.transactions[j])
  {
    var s := stocks[k];
    var e := Trade(tick, SELL, s.name, Quantity(p, s.name), Price(s, tick));
    LegStep(p, p', e, tick);
    ReplaysTrans(p, p', r);
    assert |p.transactions| <= |p'.transactions| <= |r.transactions|;
    if p' != p {
      assert |p'.transactions| == |p.transactions| + 1;
      assert r.transactions[|p.transactions|] == p'.transactions[|p.transactions|] == e;
      assert SellOffEntry(stocks, tick, e);
    }
    assert Quantity(r, s.name) == 0 by {
      if Listed(stocks, k + 1, s.name) {
        var i :| k + 1 <= i < |stocks| && 0 <= i && stocks[i].name == s.name;
      }
    }
    forall name | !Listed(stocks, k, name)
      ensures Quantity(r, name) == Quantity(p, name)
    {
      assert !Listed(stocks, k + 1, name) && name != s.name;
    }
  }

  /**
   * The final sell-off of `TenPercent` from index `k` on: sell each listed
   * stock's whole holding, ignoring refusals.
   */
  function SellOff(stocks: seq<Stock>, k: nat, tick: nat, p: Portfolio): (r: Portfolio)
    requires AllQuoted(stocks) && k <= |stocks|
    ensures forall i :: k <= i < |stocks| ==> Quantity(r, stocks[i].name) == 0
    ensures forall name :: !Listed(stocks, k, name) ==> Quantity(r, name) == Quantity(p, name)
    ensures Replays(p, r)
    ensures StampedBefore(p.transactions, tick + 1) ==> StampedBefore(r.transactions, tick + 1)
    ensures Solvent(p) && AllPositive(stocks) ==> Solvent(r)
    ensures forall j :: |p.transactions| <= j < |r.transactions| ==> SellOffEntry(stocks, tick, r.transactions[j])
    decreases |stocks| - k
  {
    if k == |stocks| then
      ReplaysRefl(p);
      p
    else
      var p' := SellAll(stocks[k], tick, p);
      var r := SellOff(stocks, k + 1, tick, p');
      SellOffCompose(stocks, k, tick, p, p', r);
      r
  }

  /** What `TenPercent` guarantees of the ledger its run ends with. */
  ghost predicate TenPercentOutcome(cash: real, stocks: seq<Stock>, percent: real, total: nat, p: Portfolio)
  {
    && !p.allowShort
    && (forall i :: 0 <= i < |stocks| ==> Quantity(p, stocks[i].name) == 0)
    && Audited(p, cash)
    && StampedBefore(p.transactions, total + 1)
    && (forall j :: 0 <= j < |p.transactions| ==> ListedTrade(stocks, 0, p.transactions[j]))
    && (forall j :: 0 <= j < |p.transactions| && p.transactions[j].tick == total ==>
          SellOffEntry(stocks, total, p.transactions[j]))
    && (percent >= 0.0 && cash >= 0.0 && AllPositive(stocks) ==> p.cash >= 0.0)
  }

  /** The main loop's ledger, stamped before `total`, followed by the sell-off at `total`. */
  lemma {:induction false} FinishRun(cash: real, stocks: seq<Stock>, percent: real, total: nat, pm: Portfolio)
    requires AllQuoted(stocks)
    requires Replays(Portfolios.New(cash, false), pm)
    requires StampedBefore(pm.transactions, total)
    requires NewEntriesListed(stocks, 0, Portfolios.New(cash, false), pm)
    requires percent >= 0.0 && cash >= 0.0 && AllPositive(stocks) ==> Solvent(pm)
    ensures TenPercentOutcome(cash, stocks, percent, total, SellOff(stocks, 0, total, pm))
  {
    var p0 := Portfolios.New(cash, false);
    var p := SellOff(stocks, 0, total, pm);
    NewIsAudited(cash, false);
    ReplaysTrans(p0, pm, p);
    ReplaysKeepAudit(p0, p, cash);
    StampedWiden(pm.transactions, total, total + 1);
    assert forall j :: 0 <= j < |pm.transactions| ==> p.transactions[j] == pm.transactions[j];
    forall j | 0 <= j < |p.transactions|
      ensures ListedTrade(stocks, 0, p.transactions[j])
    {
      if j >= |pm.transactions| {
        assert SellOffEntry(stocks, total, p.transactions[j]);
      }
    }
  }

  /** The main loop from the seeded locks on a fresh ledger, then the sell-off, meet `TenPercentOutcome`. */
  lemma {:induction false} MainThenSellOff(cash: real, stocks: seq<Stock>, percent: real, total: nat, locks: map<string, real>)
    requires AllQuoted(stocks) && Locked(stocks, locks)
    requires TickLoop(stocks, percent, total, Ticker(0), State(Portfolios.New(cash, false), locks)).Success?
    ensures TenPercentOutcome(cash, stocks, percent, total,
              SellOff(stocks, 0, total, TickLoop(stocks, percent, total, Ticker(0), State(Portfolios.New(cash, false), locks)).value.state.portfolio))
  {
    var st0 := State(Portfolios.New(cash, false), locks);
    TickLoopTrades(stocks, percent, total, Ticker(0), st0);
    FinishRun(cash, stocks, percent, total, TickLoop(stocks, percent, total, Ticker(0), st0).value.state.portfolio);
  }

  /**
   * Strategy `TenPercent`: seed each stock's lock with its price at tick 0; at
   * every tick, for every stock in list order, buy on a fall of more than
   * `percent` below the lock and sell on a rise of more than `percent` above
   * it, swallowing refused trades; finally sell every listed holding in full.
   * A price that cannot be read while seeding, a missing Open column and a
   * zero lock abort the run.
   */
  function TenPercent(cash: real, stocks: seq<Stock>, percent: real, t: Ticker): (r: Result<Run, RunError>)
    ensures |stocks| == 0 ==> r == Failure(NoStocks)
    ensures !AllQuoted(stocks) ==>
              && r.Failure? && r.error.LookupFailed?
              && exists i :: 0 <= i < |stocks| && AllQuoted(stocks[..i]) && CloseAt(stocks[i], 0) == Failure(r.error.cause)
    ensures AllQuoted(stocks) && |stocks| > 0 && OpenColname !in stocks[0].frame ==>
              r == Failure(LookupFailed(MissingColumn(OpenColname)))
    ensures AllQuoted(stocks) && |stocks| > 0 && OpenColname in stocks[0].frame && r.Failure? ==>
              r.error == DivisionByZero
    ensures AllPositive(stocks) && |stocks| > 0 && OpenColname in stocks[0].frame ==> r.Success?
    ensures r.Success? ==> |stocks| > 0 && AllQuoted(stocks) && OpenColname in stocks[0].frame
    ensures r.Success? ==>
              && r.value.ticker.value == Length(stocks[0])
              && TenPercentOutcome(cash, stocks, percent, Length(stocks[0]), r.value.portfolio)
  {
    match SeedLocks(stocks)
    case Failure(e) => Failure(LookupFailed(e))
    case Success(locks) =>
      if |stocks| == 0 then Failure(NoStocks)
      else if OpenColname !in stocks[0].frame then Failure(LookupFailed(MissingColumn(OpenColname)))
      else
        var total := Length(stocks[0]);
        var p0 := Portfolios.New(cash, false);
        match TickLoop(stocks, percent, total, Reset(t), State(p0, locks))
        case Failure(e) => Failure(e)
        case Success(main) =>
          MainThenSellOff(cash, stocks, percent, total, locks);
          Success(Run(SellOff(stocks, 0, main.ticker.value, main.state.portfolio), main.ticker))
  }

  /** The state of a `TenPercent` run at the start of tick `c`, before any stock is visited at that tick. */
  function TickStart(cash: real, stocks: seq<Stock>, percent: real, c: nat): (r: Result<State, RunError>)
    ensures r.Success? ==> AllQuoted(stocks) && Locked(stocks, r.value.locks)
  {
    match SeedLocks(stocks)
    case Failure(e) => Failure(LookupFailed(e))
    case Success(locks) =>
      match TickLoop(stocks, percent, c, Ticker(0), State(Portfolios.New(cash, false), locks))
      case Failure(e) => Failure(e)
      case Success(pr) => Success(pr.state)
  }

  /** The state of a `TenPercent` run at tick `c` just before stock `i` is visited. */
  function Turn(cash: real, stocks: seq<Stock>, percent: real, c: nat, i: nat): (r: Result<State, RunError>)
    requires i <= |stocks|
    ensures r.Success? ==> AllQuoted(stocks) && Locked(stocks, r.value.locks)
  {
    match TickStart(cash, stocks, percent, c)
    case Failure(e) => Failure(e)
    case Success(st) =>
      PrefixLocked(stocks, i, st.locks);
      match StockLoop(stocks[..i], 0, percent, c, st)
      case Failure(e) => Failure(e)
      case Success(m) =>
        StockLoopTrades(stocks[..i], 0, percent, c, st, m);
        Success(m)
  }

  /** Inside a completed pass, stock `i` is stepped from the state the stocks before it leave, and the rest of the pass keeps that step's entries. */
  lemma {:induction false} TurnWithinTick(stocks: seq<Stock>, i: nat, percent: real, tick: nat, st: State)
    requires AllQuoted(stocks) && i < |stocks| && Locked(stocks, st.locks)
    requires StockLoop(stocks, 0, percent, tick, st).Success?
    ensures StockLoop(stocks[..i], 0, percent, tick, st).Success?
    ensures var m := StockLoop(stocks[..i], 0, percent, tick, st).value;
            && Locked(stocks, m.locks)
            && Step(stocks[i], percent, tick, m).Success?
            && Replays(Step(stocks[i], percent, tick, m).value.portfolio, StockLoop(stocks, 0, percent, tick, st).value.portfolio)
  {
    StockLoopSplit(stocks, 0, i, percent, tick, st);
    var m := StockLoop(stocks[..i], 0, percent, tick, st).value;
    var st' := Step(stocks[i], percent, tick, m).value;
    assert StockLoop(stocks, i, percent, tick, m) == StockLoop(stocks, i + 1, percent, tick, st');
  }

  /** Inside a completed main loop, tick `c` is a pass from the state the earlier ticks leave, and the later ticks keep its entries. */
  lemma {:induction false} TickWithinRun(stocks: seq<Stock>, percent: real, total: nat, c: nat, st: State)
    requires AllQuoted(stocks) && Locked(stocks, st.locks) && c < total
    requires TickLoop(stocks, percent, total, Ticker(0), st).Success?
    ensures TickLoop(stocks, percent, c, Ticker(0), st).Success?
    ensures var sc := TickLoop(stocks, percent, c, Ticker(0), st).value.state;
            && Locked(stocks, sc.locks)
            && StockLoop(stocks, 0, percent, c, sc).Success?
            && Replays(StockLoop(stocks, 0, percent, c, sc).value.portfolio,
                       TickLoop(stocks, percent, total, Ticker(0), st).value.state.portfolio)
  {
    TickLoopSplit(stocks, percent, total, c, Ticker(0), st);
    var sc := TickLoop(stocks, percent, c, Ticker(0), st).value.state;
    var s1 := StockLoop(stocks, 0, percent, c, sc).value;
    assert TickLoop(stocks, percent, total, Ticker(c), sc) == TickLoop(stocks, percent, total, Ticker(c + 1), s1);
  }

  /** A completed `TenPercent` run is its main loop from the seeded locks, whose ledger the final sell-off replays. */
  lemma {:induction false} TenPercentMain(cash: real, stocks: seq<Stock>, percent: real, t: Ticker)
    requires TenPercent(cash, stocks, percent, t).Success?
    ensures |stocks| > 0 && SeedLocks(stocks).Success?
    ensures var st0 := State(Portfolios.New(cash, false), SeedLocks(stocks).value);
            && TickLoop(stocks, percent, Length(stocks[0]), Ticker(0), st0).Success?
            && Replays(TickLoop(stocks, percent, Length(stocks[0]), Ticker(0), st0).value.state.portfolio,
                       TenPercent(cash, stocks, percent, t).value.portfolio)
  {
    assert Reset(t) == Ticker(0);
  }

  /** Inside a completed main loop, tick `c` is a pass from `TickStart`'s state, and the later ticks keep its entries. */
  lemma {:induction false} TickStartInRun(cash: real, stocks: seq<Stock>, percent: real, total: nat, c: nat)
    requires SeedLocks(stocks).Success? && c < total
    requires TickLoop(stocks, percent, total, Ticker(0), State(Portfolios.New(cash, false), SeedLocks(stocks).value)).Success?
    ensures TickStart(cash, stocks, percent, c).Success?
    ensures var sc := TickStart(cash, stocks, percent, c).value;
            && StockLoop(stocks, 0, percent, c, sc).Success?
            && Replays(StockLoop(stocks, 0, percent, c, sc).value.portfolio,
                       TickLoop(stocks, percent, total, Ticker(0), State(Portfolios.New(cash, false), SeedLocks(stocks).value)).value.state.portfolio)
  {
    var st0 := State(Portfolios.New(cash, false), SeedLocks(stocks).value);
    TickWithinRun(stocks, percent, total, c, st0);
    assert TickStart(cash, stocks, percent, c) == Success(TickLoop(stocks, percent, c, Ticker(0), st0).value.state);
  }

  /** Inside a completed pass from `TickStart`'s state, stock `i` is stepped from `Turn`'s state, and the pass keeps that step's entries. */
  lemma {:induction false} TurnInTick(cash: real, stocks: seq<Stock>, percent: real, c: nat, i: nat)
    requires i < |stocks| && TickStart(cash, stocks, percent, c).Success?
    requires StockLoop(stocks, 0, percent, c, TickStart(cash, stocks, percent, c).value).Success?
    ensures Turn(cash, stocks, percent, c, i).Success?
    ensures var m := Turn(cash, stocks, percent, c, i).value;
            && Step(stocks[i], percent, c, m).Success?
            && Replays(Step(stocks[i], percent, c, m).value.portfolio,
                       StockLoop(stocks, 0, percent, c, TickStart(cash, stocks, percent, c).value).value.portfolio)
  {
    var sc := TickStart(cash, stocks, percent, c).value;
    TurnWithinTick(stocks, i, percent, c, sc);
    TurnIsPrefixPass(cash, stocks, percent, c, i);
  }

  /** `Turn` is the pass over the stocks before `i`, from `TickStart`'s state. */
  lemma TurnIsPrefixPass(cash: real, stocks: seq<Stock>, percent: real, c: nat, i: nat)
    requires i <= |stocks| && TickStart(cash, stocks, percent, c).Success?
    ensures Turn(cash, stocks, percent, c, i) == StockLoop(stocks[..i], 0, percent, c, TickStart(cash, stocks, percent, c).value)
  {
  }

  /** Inside a completed main loop, stock `i` at tick `c` is stepped from `Turn`'s state, and the loop keeps that step's entries. */
  lemma {:induction false} TurnInRun(cash: real, stocks: seq<Stock>, percent: real, total: nat, c: nat, i: nat)
    requires SeedLocks(stocks).Success? && c < total && i < |stocks|
    requires TickLoop(stocks, percent, total, Ticker(0), State(Portfolios.New(cash, false), SeedLocks(stocks).value)).Success?
    ensures Turn(cash, stocks, percent, c, i).Success?
    ensures var m := Turn(cash, stocks, percent, c, i).value;
            && Step(stocks[i], percent, c, m).Success?
            && Replays(Step(stocks[i], percent, c, m).value.portfolio,
                       TickLoop(stocks, percent, total, Ticker(0), State(Portfolios.New(cash, false), SeedLocks(stocks).value)).value.state.portfolio)
  {
    TickStartInRun(cash, stocks, percent, total, c);
    TurnInTick(cash, stocks, percent, c, i);
    var sc := TickStart(cash, stocks, percent, c).value;
    var m := Turn(cash, stocks, percent, c, i).value;
    ReplaysTrans(Step(stocks[i], percent, c, m).value.portfolio, StockLoop(stocks, 0, percent, c, sc).value.portfolio,
                 TickLoop(stocks, percent, total, Ticker(0), State(Portfolios.New(cash, false), SeedLocks(stocks).value)).value.state.portfolio);
  }

  /**
   * In a completed `TenPercent` run, the visit of stock `i` at tick `c` is a
   * `Step` from `Turn`'s state: it appends exactly the entries `TickTrades`
   * names for the lock and the price then, and the final ledger keeps them.
   */
  lemma {:induction false} TenPercentTurn(cash: real, stocks: seq<Stock>, percent: real, t: Ticker, c: nat, i: nat)
    requires TenPercent(cash, stocks, percent, t).Success?
    requires i < |stocks| && c < Length(stocks[0])
    ensures Turn(cash, stocks, percent, c, i).Success?
    ensures var m := Turn(cash, stocks, percent, c, i).value;
            var s := stocks[i];
            var step := Step(s, percent, c, m);
            && step.Success?
            && m.locks[s.name] != 0.0
            && TickTrades(s.name, percent, c, Price(s, c), m.locks[s.name], m.portfolio,
                          step.value.portfolio, step.value.locks[s.name])
            && step.value.portfolio.transactions <= TenPercent(cash, stocks, percent, t).value.portfolio.transactions
  {
    TenPercentMain(cash, stocks, percent, t);
    var st0 := State(Portfolios.New(cash, false), SeedLocks(stocks).value);
    var main := TickLoop(stocks, percent, Length(stocks[0]), Ticker(0), st0).value;
    TurnInRun(cash, stocks, percent, Length(stocks[0]), c, i);
    var m := Turn(cash, stocks, percent, c, i).value;
    var step := Step(stocks[i], percent, c, m).value;
    var p := TenPercent(cash, stocks, percent, t).value.portfolio;
    ReplaysTrans(step.portfolio, main.state.portfolio, p);
    assert StepOutcome(stocks[i], percent, c, m.locks[stocks[i].name], m.portfolio, step.portfolio, step.locks[stocks[i].name]);
  }

  /**
   * In a completed `TenPercent` run, when stock `i`'s price at tick `c` has
   * fallen more than `percent` below its lock at its turn and the buy for
   * the budget int(cash * percent) is accepted, that BUY is in the final ledger.
   */
  lemma TenPercentBuysOnFall(cash: real, stocks: seq<Stock>, percent: real, t: Ticker, c: nat, i: nat)
    requires TenPercent(cash, stocks, percent, t).Success?
    requires i < |stocks| && c < Length(stocks[0])
    ensures Turn(cash, stocks, percent, c, i).Success?
    ensures var m := Turn(cash, stocks, percent, c, i).value;
            var s := stocks[i];
            var lp, cp := m.locks[s.name], Price(s, c);
            lp != 0.0 && (lp - cp) / lp > percent && BuyAmount(m.portfolio, s.name, BuyBudget(m.portfolio, percent), cp, c).Success? ==>
              Trade(c, BUY, s.name, (BuyBudget(m.portfolio, percent) / cp).Floor, cp)
                in TenPercent(cash, stocks, percent, t).value.portfolio.transactions
  {
    TenPercentTurn(cash, stocks, percent, t, c, i);
    var m := Turn(cash, stocks, percent, c, i).value;
    var step := Step(stocks[i], percent, c, m).value;
    var log := TenPercent(cash, stocks, percent, t).value.portfolio.transactions;
    var n := |m.portfolio.transactions|;
    if n < |step.portfolio.transactions| {
      assert log[n] == step.portfolio.transactions[n];
    }
  }

  /**
   * In a completed `TenPercent` run, when stock `i`'s price at tick `c` has
   * risen more than `percent` above the lock its buy branch leaves and the
   * sale of int(holding * percent) shares is accepted, that SELL is in the
   * final ledger.
   */
  lemma TenPercentSellsOnRise(cash: real, stocks: seq<Stock>, percent: real, t: Ticker, c: nat, i: nat)
    requires TenPercent(cash, stocks, percent, t).Success?
    requires i < |stocks| && c < Length(stocks[0])
    ensures Turn(cash, stocks, percent, c, i).Success?
    ensures var m := Turn(cash, stocks, percent, c, i).value;
            var s := stocks[i];
            var lp, cp := m.locks[s.name], Price(s, c);
            SellTriggered(s.name, percent, c, cp, lp, m.portfolio) ==>
              var b := BuyLeg(s.name, percent, c, cp, m.portfolio, lp);
              Trade(c, SELL, s.name, SellQuantity(b.portfolio, s.name, percent), cp)
                in TenPercent(cash, stocks, percent, t).value.portfolio.transactions
  {
    TenPercentTurn(cash, stocks, percent, t, c, i);
    var m := Turn(cash, stocks, percent, c, i).value;
    var step := Step(stocks[i], percent, c, m).value;
    var log := TenPercent(cash, stocks, percent, t).value.portfolio.transactions;
    var s, cp := stocks[i], Price(stocks[i], c);
    var b := BuyLeg(s.name, percent, c, cp, m.portfolio, m.locks[s.name]);
    if SellTriggered(s.name, percent, c, cp, m.locks[s.name], m.portfolio) {
      var e := Trade(c, SELL, s.name, SellQuantity(b.portfolio, s.name, percent), cp);
      assert step.portfolio.transactions == b.portfolio.transactions + [e];
      assert log[|b.portfolio.transactions|] == step.portfolio.transactions[|b.portfolio.transactions|] == e;
    }
  }

  /** With distinct names, the stocks visited before stock `i` at a tick leave its lock as the tick found it. */
  lemma {:induction false} TurnKeepsLock(cash: real, stocks: seq<Stock>, percent: real, c: nat, i: nat)
    requires DistinctNames(stocks) && i < |stocks|
    requires Turn(cash, stocks, percent, c, i).Success?
    ensures TickStart(cash, stocks, percent, c).Success?
    ensures Turn(cash, stocks, percent, c, i).value.locks[stocks[i].name] ==
              TickStart(cash, stocks, percent, c).value.locks[stocks[i].name]
  {
    var st := TickStart(cash, stocks, percent, c).value;
    PrefixLocked(stocks, i, st.locks);
    StockLoopTrades(stocks[..i], 0, percent, c, st, StockLoop(stocks[..i], 0, percent, c, st).value);
  }

  ghost predicate DistinctNames(stocks: seq<Stock>)
  {
    forall i, j :: 0 <= i < j < |stocks| ==> stocks[i].name != stocks[j].name
  }

  /** Prices that never move: each stock's price at every tick is its price at tick 0. */
  ghost predicate Flat(stocks: seq<Stock>)
    requires AllQuoted(stocks)
  {
    forall i, tick: nat :: 0 <= i < |stocks| ==> Price(stocks[i], tick) == Price(stocks[i], 0)
  }

  lemma {:induction false} StockLoopIdle(stocks: seq<Stock>, k: nat, percent: real, tick: nat, st: State)
    requires AllQuoted(stocks) && k <= |stocks| && Locked(stocks, st.locks)
    requires percent >= 0.0
    requires forall i :: k <= i < |stocks| ==>
               Price(stocks[i], tick) != 0.0 && st.locks[stocks[i].name] == Price(stocks[i], tick)
    ensures StockLoop(stocks, k, percent, tick, st) == Success(st)
    decreases |stocks| - k
  {
    if k < |stocks| {
      assert Step(stocks[k], percent, tick, st) == Success(st) by {
        assert st.locks[stocks[k].name] == Price(stocks[k], tick);
      }
      StockLoopIdle(stocks, k + 1, percent, tick, st);
    }
  }

  lemma {:induction false} TickLoopIdle(stocks: seq<Stock>, percent: real, total: nat, t: Ticker, st: State)
    requires AllQuoted(stocks) && Locked(stocks, st.locks) && Flat(stocks)
    requires 0 <= t.value <= total
    requires percent >= 0.0
    requires forall i :: 0 <= i < |stocks| ==>
               Price(stocks[i], 0) != 0.0 && st.locks[stocks[i].name] == Price(stocks[i], 0)
    ensures TickLoop(stocks, percent, total, t, st) == Success(Progress(st, Ticker(total)))
    decreases total - t.value
  {
    if t.value < total {
      StockLoopIdle(stocks, 0, percent, t.value, st);
      TickLoopIdle(stocks, percent, total, Tick(t), st);
    }
  }

  lemma {:induction false} SellOffIdle(stocks: seq<Stock>, k: nat, tick: nat, p: Portfolio)
    requires AllQuoted(stocks) && k <= |stocks|
    requires forall i :: k <= i < |stocks| ==> Quantity(p, stocks[i].name) == 0
    ensures SellOff(stocks, k, tick, p) == p
    decreases |stocks| - k
  {
    if k < |stocks| {
      SellOffIdle(stocks, k + 1, tick, p);
    }
  }

  /**
   * With positive prices that never move and `percent` >= 0, no lock is ever
   * crossed: `TenPercent` trades nothing, and the final sell-off has nothing
   * to sell.
   */
  lemma FlatPricesNeverTrade(cash: real, stocks: seq<Stock>, percent: real, t: Ticker)
    requires AllPositive(stocks) && |stocks| > 0 && OpenColname in stocks[0].frame
    requires DistinctNames(stocks) && Flat(stocks)
    requires percent >= 0.0
    ensures TenPercent(cash, stocks, percent, t) ==
              Success(Run(Portfolios.New(cash, false), Ticker(Length(stocks[0]))))
  {
    var total := Length(stocks[0]);
    var p0 := Portfolios.New(cash, false);
    var locks := SeedLocks(stocks).value;
    assert forall i :: 0 <= i < |stocks| ==> LastOfName(stocks, i);
    TickLoopIdle(stocks, percent, total, Reset(t), State(p0, locks));
    SellOffIdle(stocks, 0, total, p0);
  }
}

=== FILE: portfolios.dfy ===
/**
 * The ledger (finance/portfolio.py): cash, a signed holding per stock name and
 * an append-only log of the trades it accepted. Every operation returns a new
 * portfolio, or the reason it refused, in place of raising.
 */
module Portfolios {
  import opened Wrappers
  import opened Transactions

  /** One row of the holdings report: quantity and its value at the given price. */
  datatype Holding = Holding(name: string, quantity: int, valuation: real)

  datatype Portfolio = Portfolio(
    cash: real,
    allowShort: bool,
    transactions: seq<Transaction>,
    holdings: map<string, int>)

  datatype TradeError =
    | ZeroQuantity        // a trade of 0 shares
    | NotEnoughMoney      // a buy costing more than the cash
    | NotEnoughStocks     // a sell beyond the holding on a no-short ledger
    | ZeroPrice           // an amount divided by a zero price
    | NotSubscriptable    // the holdings record indexed like a dictionary

  /** A trade sized from an amount of money: the quantity traded and the new ledger. */
  datatype Filled = Filled(quantity: int, portfolio: Portfolio)

  /** The holding of a stock; a stock never traded holds 0. */
  function Quantity(p: Portfolio, name: string): int
  {
    if name in p.holdings then p.holdings[name] else 0
  }

  /** A fresh ledger: the initial cash, nothing held, nothing logged. */
  function New(initialCash: real, allowShort: bool): (p: Portfolio)
    ensures p.cash == initialCash && p.allowShort == allowShort && p.transactions == []
    ensures forall name :: Quantity(p, name) == 0
  {
    Portfolio(initialCash, allowShort, [], map[])
  }

  /**
   * What accepting trade `t` does to a ledger: one log entry appended, cash and
   * the traded stock's holding moved by the trade, every other holding untouched.
   */
  ghost predicate Records(p: Portfolio, p': Portfolio, t: Transaction)
  {
    && p'.transactions == p.transactions + [t]
    && p'.allowShort == p.allowShort
    && t.amount == t.price * t.quantity as real
    && p'.cash == p.cash + CashDelta(t)
    && Quantity(p', t.stockName) == Quantity(p, t.stockName) + QuantityDelta(t)
    && (forall name :: name != t.stockName ==> Quantity(p', name) == Quantity(p, name))
    && p'.holdings.Keys == p.holdings.Keys + {t.stockName}
  }

  /** The log entry of an accepted trade: amount is price times quantity. */
  function Trade(tick: int, kind: TransactionType, name: string, quantity: int, price: real): (t: Transaction)
    ensures t.amount == t.price * t.quantity as real
  {
    Transaction(tick, kind, name, quantity, price, price * quantity as real)
  }

  function Apply(p: Portfolio, t: Transaction): (p': Portfolio)
  {
    Portfolio(p.cash + CashDelta(t), p.allowShort, p.transactions + [t],
              p.holdings[t.stockName := Quantity(p, t.stockName) + QuantityDelta(t)])
  }

  /** `buy`: refuses a zero quantity and a cost above the cash; otherwise records the trade. */
  function Buy(p: Portfolio, name: string, quantity: int, price: real, tick: int): (r: Result<Portfolio, TradeError>)
    ensures quantity == 0 ==> r == Failure(ZeroQuantity)
    ensures quantity != 0 && p.cash < price * quantity as real ==> r == Failure(NotEnoughMoney)
    ensures r.Success? <==> quantity != 0 && price * quantity as real <= p.cash
    ensures r.Success? ==>
              Records(p, r.value, Trade(tick, BUY, name, quantity, price))
    ensures r.Success? ==> r.value.cash >= 0.0
  {
    if quantity == 0 then Failure(ZeroQuantity)
    else
      var amount := price * quantity as real;
      if p.cash < amount then Failure(NotEnoughMoney)
      else Success(Apply(p, Trade(tick, BUY, name, quantity, price)))
  }

  /**
   * `sell`: refuses a zero quantity and, on a no-short ledger, a quantity above
   * the holding; otherwise records the trade.
   */
  function Sell(p: Portfolio, name: string, quantity: int, price: real, tick: int): (r: Result<Portfolio, TradeError>)
    ensures quantity == 0 ==> r == Failure(ZeroQuantity)
    ensures quantity != 0 && !p.allowShort && quantity > Quantity(p, name) ==> r == Failure(NotEnoughStocks)
    ensures r.Success? <==> quantity != 0 && (p.allowShort || quantity <= Quantity(p, name))
    ensures r.Success? ==>
              Records(p, r.value, Trade(tick, SELL, name, quantity, price))
    ensures r.Success? && !p.allowShort && Quantity(p, name) >= 0 ==> Quantity(r.value, name) >= 0
    ensures r.Success? && quantity > 0 && price > 0.0 ==> r.value.cash > p.cash
  {
    if quantity == 0 then Failure(ZeroQuantity)
    else if !p.allowShort && quantity > Quantity(p, name) then Failure(NotEnoughStocks)
    else Success(Apply(p, Trade(tick, SELL, name, quantity, price)))
  }

  /**
   * `sell` exactly as the source writes it: its no-short check indexes the
   * holdings record with a key, which a record does not support, so on a
   * no-short ledger every non-zero sell is refused whatever the holding.
   */
  function SellAsWritten(p: Portfolio, name: string, quantity: int, price: real, tick: int): (r: Result<Portfolio, TradeError>)
    ensures r.Success? <==> quantity != 0 && p.allowShort
    ensures quantity != 0 && !p.allowShort ==> r == Failure(NotSubscriptable)
  {
    if quantity == 0 then Failure(ZeroQuantity)
    else if !p.allowShort then Failure(NotSubscriptable)
    else Success(Apply(p, Trade(tick, SELL, name, quantity, price)))
  }

  /** The whole number of shares an amount pays for: floor division by the price. */
  lemma FloorShares(amount: real, price: real)
    requires price != 0.0
    ensures price > 0.0 ==>
              price * (amount / price).Floor as real <= amount < price * ((amount / price).Floor + 1) as real
    ensures price > 0.0 && 0.0 <= amount < price ==> (amount / price).Floor == 0
  {
    if price > 0.0 {
      var x := amount / price;
      var q := x.Floor;
      var lo, hi := q as real, (q + 1) as real;
      assert lo <= x < hi;
      assert amount == price * x;
      MulMono(price, lo, x);
      MulStrict(price, x, hi);
      assert amount < price * hi;
      if 0.0 <= amount < price {
        BelowPrice(amount, price);
      }
    }
  }

  lemma BelowPrice(amount: real, price: real)
    requires 0.0 <= amount < price
    ensures (amount / price).Floor == 0
  {
    var x := amount / price;
    assert amount == price * x;
    MulStrict(price, x, 1.0);
    MulStrict(price, x, 0.0);
    assert 0.0 <= x < 1.0;
  }

  lemma MulMono(a: real, b: real, c: real)
    requires a > 0.0 && b <= c
    ensures a * b <= a * c
  {}

  lemma MulStrict(a: real, b: real, c: real)
    requires a > 0.0
    ensures b < c <==> a * b < a * c
  {}

  /** Attaches the traded quantity to an accepted trade. */
  function Fill(quantity: int, r: Result<Portfolio, TradeError>): (f: Result<Filled, TradeError>)
    ensures f.Success? <==> r.Success?
    ensures f.Success? ==> f.value.quantity == quantity && f.value.portfolio == r.value
    ensures f.Failure? ==> f.error == r.error
  {
    match r
    case Success(p) => Success(Filled(quantity, p))
    case Failure(e) => Failure(e)
  }

  /** `buy_amount`: buys floor(amount / price) shares and reports that quantity. */
  function BuyAmount(p: Portfolio, name: string, amount: real, price: real, tick: int): (r: Result<Filled, TradeError>)
    ensures price == 0.0 ==> r == Failure(ZeroPrice)
    ensures price > 0.0 && 0.0 <= amount < price ==> r == Failure(ZeroQuantity)
    ensures r.Success? ==> r.value.quantity != 0 && r.value.quantity == (amount / price).Floor
    ensures r.Success? ==> Buy(p, name, r.value.quantity, price, tick) == Success(r.value.portfolio)
    ensures r.Success? ==>
              Records(p, r.value.portfolio,
                      Trade(tick, BUY, name, r.value.quantity, price))
    ensures r.Success? && price > 0.0 ==>
              price * r.value.quantity as real <= amount < price * (r.value.quantity + 1) as real
    ensures r.Failure? && price != 0.0 ==>
              Buy(p, name, (amount / price).Floor, price, tick).Failure?
  {
    if price == 0.0 then Failure(ZeroPrice)
    else
      var quantity := (amount / price).Floor;
      FloorShares(amount, price);
      Fill(quantity, Buy(p, name, quantity, price, tick))
  }

  /** `sell_amount`: sells floor(amount / price) shares and reports that quantity. */
  function SellAmount(p: Portfolio, name: string, amount: real, price: real, tick: int): (r: Result<Filled, TradeError>)
    ensures price == 0.0 ==> r == Failure(ZeroPrice)
    ensures price > 0.0 && 0.0 <= amount < price ==> r == Failure(ZeroQuantity)
    ensures r.Success? ==> r.value.quantity != 0 && r.value.quantity == (amount / price).Floor
    ensures r.Success? ==> Sell(p, name, r.value.quantity, price, tick) == Success(r.value.portfolio)
    ensures r.Success? ==>
              Records(p, r.value.portfolio,
                      Trade(tick, SELL, name, r.value.quantity, price))
    ensures r.Success? && price > 0.0 ==>
              price * r.value.quantity as real <= amount < price * (r.value.quantity + 1) as real
    ensures r.Failure? && price != 0.0 ==>
              Sell(p, name, (amount / price).Floor, price, tick).Failure?
  {
    if price == 0.0 then Failure(ZeroPrice)
    else
      var quantity := (amount / price).Floor;
      FloorShares(amount, price);
      Fill(quantity, Sell(p, name, quantity, price, tick))
  }

  /** `get_all_transactions`: the log, oldest first; each per-stock view is its filter. */
  function AllTransactions(p: Portfolio): (r: seq<Transaction>)
    ensures |r| == |p.transactions|
    ensures forall name :: ForStock(r, name) == StockTransactions(p, name)
  {
    p.transactions
  }

  /** `get_stock_transactions`: the log entries of one stock, oldest first. */
  function StockTransactions(p: Portfolio, name: string): (r: seq<Transaction>)
    ensures forall t :: t in r <==> t in p.transactions && t.stockName == name
  {
    ForStock(p.transactions, name)
  }

  /** `get_holding`: a stock's holding valued at its current price. */
  function GetHolding(p: Portfolio, name: string, price: real): (h: Holding)
    ensures h.name == name
    ensures h.quantity == Quantity(p, name)
    ensures name !in p.holdings ==> h.quantity == 0 && h.valuation == 0.0
    ensures h.valuation == h.quantity as real * price
  {
    var q := Quantity(p, name);
    Holding(name, q, q as real * price)
  }

  /** `holdings`: one report row per stock the ledger has an entry for, each at its own price. */
  function HoldingsReport(p: Portfolio, price: string -> real): (r: map<string, Holding>)
    ensures r.Keys == p.holdings.Keys
    ensures forall name :: name in r ==>
              r[name].name == name && r[name].quantity == p.holdings[name]
              && r[name].valuation == p.holdings[name] as real * price(name)
  {
    map name | name in p.holdings :: GetHolding(p, name, price(name))
  }

  /** Appending a trade to the log extends both views of it and nothing else. */
  lemma LogAppendOnly(p: Portfolio, p': Portfolio, t: Transaction, name: string)
    requires Records(p, p', t)
    ensures AllTransactions(p') == AllTransactions(p) + [t]
    ensures StockTransactions(p', name) ==
              StockTransactions(p, name) + (if t.stockName == name then [t] else [])
  {
    ForStockAppend(p.transactions, [t], name);
  }

  /**
   * The ledger agrees with its own log: cash is the initial cash plus the log's
   * cash flow, each holding is the log's net quantity, each entry is priced.
   */
  ghost predicate Audited(p: Portfolio, initialCash: real)
  {
    && p.cash == initialCash + CashFlow(p.transactions)
    && (forall name :: Quantity(p, name) == Net(p.transactions, name))
    && Priced(p.transactions)
  }

  /**
   * `p'` is `p` with the trades logged after `p`'s last entry applied to it:
   * the ledger relation every run of trades keeps.
   */
  ghost predicate Replays(p: Portfolio, p': Portfolio)
  {
    && |p.transactions| <= |p'.transactions|
    && p'.transactions[..|p.transactions|] == p.transactions
    && p'.allowShort == p.allowShort
    && p'.cash == p.cash + CashFlow(p'.transactions[|p.transactions|..])
    && (forall name :: Quantity(p', name) == Quantity(p, name) + Net(p'.transactions[|p.transactions|..], name))
    && Priced(p'.transactions[|p.transactions|..])
  }

  lemma ReplaysRefl(p: Portfolio)
    ensures Replays(p, p)
  {
    assert p.transactions[|p.transactions|..] == [];
  }

  lemma RecordsReplays(p: Portfolio, p': Portfolio, t: Transaction)
    requires Records(p, p', t)
    ensures Replays(p, p')
  {
    var suffix := p'.transactions[|p.transactions|..];
    assert suffix == [t];
    assert suffix[1..] == [];
  }

  lemma {:induction false} ReplaysTrans(p: Portfolio, p': Portfolio, p'': Portfolio)
    requires Replays(p, p') && Replays(p', p'')
    ensures Replays(p, p'')
  {
    var n, n' := |p.transactions|, |p'.transactions|;
    var a, b := p'.transactions[n..], p''.transactions[n'..];
    assert p''.transactions[..n] == p.transactions;
    assert p''.transactions[n..] == a + b;
    CashFlowAppend(a, b);
    PricedAppend(a, b);
    forall name
      ensures Quantity(p'', name) == Quantity(p, name) + Net(p''.transactions[n..], name)
    {
      NetAppend(a, b, name);
    }
  }

  lemma NewIsAudited(initialCash: real, allowShort: bool)
    ensures Audited(New(initialCash, allowShort), initialCash)
  {
  }

  lemma PricedAppend(a: seq<Transaction>, b: seq<Transaction>)
    requires Priced(a) && Priced(b)
    ensures Priced(a + b)
  {
    forall j | 0 <= j < |a + b|
      ensures (a + b)[j].amount == (a + b)[j].price * (a + b)[j].quantity as real
    {
      if j >= |a| {
        assert (a + b)[j] == b[j - |a|];
      } else {
        assert (a + b)[j] == a[j];
      }
    }
  }

  /** A ledger that agrees with its log keeps agreeing under every replayed trade. */
  lemma {:induction false} ReplaysKeepAudit(p: Portfolio, p': Portfolio, initialCash: real)
    requires Audited(p, initialCash) && Replays(p, p')
    ensures Audited(p', initialCash)
  {
    var log, log' := p.transactions, p'.transactions;
    var suffix := log'[|log|..];
    assert log' == log + suffix;
    CashFlowAppend(log, suffix);
    forall name
      ensures Quantity(p', name) == Net(log', name)
    {
      NetAppend(log, suffix, name);
    }
    PricedAppend(log, suffix);
  }

  /** Cash plus the value of the listed holdings, each at its price. */
  function HoldingsValue(p: Portfolio, names: seq<string>, price: string -> real): real
  {
    if |names| == 0 then 0.0
    else Value(p, names[0], price) + HoldingsValue(p, names[1..], price)
  }

  /** The value of one holding at its price. */
  function Value(p: Portfolio, name: string, price: string -> real): real
  {
    Quantity(p, name) as real * price(name)
  }

  function Worth(p: Portfolio, names: seq<string>, price: string -> real): real
  {
    p.cash + HoldingsValue(p, names, price)
  }

  ghost predicate Distinct(names: seq<string>)
  {
    forall i, j :: 0 <= i < j < |names| ==> names[i] != names[j]
  }

  lemma DistinctTail(names: seq<string>)
    requires Distinct(names) && |names| > 0
    ensures Distinct(names[1..])
    ensures names[0] !in names[1..]
  {
    forall i, j | 0 <= i < j < |names[1..]|
      ensures names[1..][i] != names[1..][j]
    {
      assert names[1..][i] == names[i + 1] && names[1..][j] == names[j + 1];
    }
    forall k | 0 <= k < |names[1..]|
      ensures names[1..][k] != names[0]
    {
      assert names[1..][k] == names[k + 1];
    }
  }

  lemma MulSub(a: real, b: real, c: real)
    ensures a * c - b * c == (a - b) * c
  {
  }

  /** Holdings whose quantities differ only in `name` differ in value by that holding's change. */
  lemma {:induction false} HoldingsValueShift(p: Portfolio, p': Portfolio, names: seq<string>,
                                              price: string -> real, name: string)
    requires forall n :: n != name ==> Quantity(p', n) == Quantity(p, n)
    requires Distinct(names)
    ensures HoldingsValue(p', names, price) ==
              HoldingsValue(p, names, price)
              + (if name in names then Value(p', name, price) - Value(p, name, price) else 0.0)
    decreases |names|
  {
    if |names| > 0 {
      var head, tail := names[0], names[1..];
      assert names == [head] + tail;
      DistinctTail(names);
      HoldingsValueShift(p, p', tail, price, name);
      if head != name {
        assert Value(p', head, price) == Value(p, head, price);
        assert (name in names) == (name in tail);
      }
    }
  }

  lemma TradeValue(t: Transaction)
    requires t.amount == t.price * t.quantity as real
    ensures CashDelta(t) == -(QuantityDelta(t) as real * t.price)
  {
    if t.kind == SELL {
      assert QuantityDelta(t) as real == -(t.quantity as real);
      assert (-(t.quantity as real)) * t.price == -(t.quantity as real * t.price);
    }
  }

  /** A recorded trade at the traded stock's price moves value between cash and holdings. */
  lemma {:induction false} RecordConservesWorth(p: Portfolio, p': Portfolio, t: Transaction,
                                                names: seq<string>, price: string -> real)
    requires Records(p, p', t)
    requires t.price == price(t.stockName)
    requires Distinct(names) && t.stockName in names
    ensures Worth(p', names, price) == Worth(p, names, price)
  {
    var name := t.stockName;
    var moved := Value(p', name, price) - Value(p, name, price);
    assert HoldingsValue(p', names, price) == HoldingsValue(p, names, price) + moved by {
      HoldingsValueShift(p, p', names, price, name);
    }
    assert p'.cash == p.cash - moved by {
      var a, b := Quantity(p', name) as real, Quantity(p, name) as real;
      assert a - b == QuantityDelta(t) as real;
      MulSub(a, b, t.price);
      TradeValue(t);
    }
  }

  /**
   * Conservation: at fixed prices, an accepted buy or sell of a listed stock at
   * that stock's price leaves cash plus the value of the holdings unchanged.
   */
  lemma TradesConserveWorth(p: Portfolio, name: string, quantity: int, tick: int,
                            names: seq<string>, price: string -> real)
    requires Distinct(names) && name in names
    ensures Buy(p, name, quantity, price(name), tick).Success? ==>
              Worth(Buy(p, name, quantity, price(name), tick).value, names, price) == Worth(p, names, price)
    ensures Sell(p, name, quantity, price(name), tick).Success? ==>
              Worth(Sell(p, name, quantity, price(name), tick).value, names, price) == Worth(p, names, price)
  {
    var b := Buy(p, name, quantity, price(name), tick);
    if b.Success? {
      RecordConservesWorth(p, b.value, Trade(tick, BUY, name, quantity, price(name)), names, price);
    }
    var s := Sell(p, name, quantity, price(name), tick);
    if s.Success? {
      RecordConservesWorth(p, s.value, Trade(tick, SELL, name, quantity, price(name)), names, price);
    }
  }

  /** The holding row of a ledger that agrees with its log reports the log's net quantity. */
  lemma HoldingMatchesLog(p: Portfolio, initialCash: real, name: string, price: real)
    requires Audited(p, initialCash)
    ensures GetHolding(p, name, price).quantity == Net(p.transactions, name)
    ensures GetHolding(p, name, price).valuation == Net(p.transactions, name) as real * price
  {
  }

  /** The valuations of the report rows of the listed names, summed (a name with no row adds 0). */
  function ReportValue(report: map<string, Holding>, names: seq<string>): real
  {
    if |names| == 0 then 0.0
    else (if names[0] in report then report[names[0]].valuation else 0.0) + ReportValue(report, names[1..])
  }

  /** Cash plus the valuations the holdings report lists is the ledger's worth at those prices. */
  lemma {:induction false} ReportTotalsWorth(p: Portfolio, names: seq<string>, price: string -> real)
    ensures p.cash + ReportValue(HoldingsReport(p, price), names) == Worth(p, names, price)
    decreases |names|
  {
    if |names| > 0 {
      ReportTotalsWorth(p, names[1..], price);
      var report := HoldingsReport(p, price);
      assert (if names[0] in report then report[names[0]].valuation else 0.0) == Value(p, names[0], price);
    }
  }

  /**
   * Buying a positive quantity and selling it back at the same price restores
   * the cash and every holding; the log keeps both trades.
   */
  lemma BuyThenSellRestores(p: Portfolio, name: string, quantity: int, price: real, tick: int, tick': int)
    requires quantity > 0 && Quantity(p, name) >= 0
    requires Buy(p, name, quantity, price, tick).Success?
    ensures Sell(Buy(p, name, quantity, price, tick).value, name, quantity, price, tick').Success?
    ensures var p'' := Sell(Buy(p, name, quantity, price, tick).value, name, quantity, price, tick').value;
            && p''.cash == p.cash
            && (forall n :: Quantity(p'', n) == Quantity(p, n))
            && p''.transactions == p.transactions
                 + [Trade(tick, BUY, name, quantity, price),
                    Trade(tick', SELL, name, quantity, price)]
  {
  }

  /**
   * The source's sell refuses a sale the holding covers: a no-short ledger
   * holding 5 shares cannot sell 1, where the intended check accepts it.
   */
  lemma SellAsWrittenRefusesCoveredSale()
    ensures var p := Buy(New(100.0, false), "X", 5, 10.0, 0).value;
            && Quantity(p, "X") == 5
            && Sell(p, "X", 1, 10.0, 1).Success?
            && SellAsWritten(p, "X", 1, 10.0, 1) == Failure(NotSubscriptable)
  {
  }
}

=== FILE: scenarios.dfy ===
/**
 * Worked runs of the strategies on small price series, stated as lemmas about
 * the model so that each run's outcome is fixed by proof.
 */
module Scenarios {
  import opened Wrappers
  import opened Tickers
  import opened Stocks
  import opened Transactions
  import opened Portfolios
  import opened Algorithms

  const Closes: seq<real> := [100.0, 90.0, 80.0, 110.0, 120.0]

  /** One stock "X" with the prices `Closes` and no High or Low column. */
  function Series(): (s: Stock)
    ensures PositiveCloses(s) && OpenColname in s.frame && Length(s) == 5
    ensures HighColname !in s.frame && LowColname !in s.frame
  {
    Stock("X", map[OpenColname := Closes, CloseColname := Closes])
  }

  function Seeded(): (st: State)
  {
    State(Portfolios.New(1000.0, false), map["X" := 100.0])
  }

  function Bought(): (p: Portfolio)
  {
    Apply(Portfolios.New(1000.0, false), Trade(2, BUY, "X", 1, 80.0))
  }

  function AfterBuy(): (st: State)
  {
    State(Bought(), map["X" := 90.0])
  }

  lemma SeedOfSeries()
    ensures SeedLocks([Series()]) == Success(Seeded().locks)
  {
    var s := Series();
    assert [s][..0] == [];
    assert Price(s, 0) == 100.0;
  }

  /** Ticks 0 and 1: at the lock, then 10% below it, which is not more than 10%. */
  lemma QuietStart()
    ensures StockLoop([Series()], 0, 0.1, 0, Seeded()) == Success(Seeded())
    ensures StockLoop([Series()], 0, 0.1, 1, Seeded()) == Success(Seeded())
  {
    var s := Series();
    assert Price(s, 0) == 100.0;
    assert Price(s, 1) == 90.0;
    assert BuyLeg("X", 0.1, 1, 90.0, Seeded().portfolio, 100.0) == Leg(Seeded().portfolio, 100.0);
    assert SellLeg("X", 0.1, 1, 90.0, Seeded().portfolio, 100.0) == Leg(Seeded().portfolio, 100.0);
    assert Seeded().locks["X" := 100.0] == Seeded().locks;
    assert Step(s, 0.1, 1, Seeded()) == Success(Seeded());
  }

  /** Tick 2: 20% below the lock buys int(100 / 80) = 1 share at 80 and moves the lock to 90. */
  lemma BuyAtEighty()
    ensures StockLoop([Series()], 0, 0.1, 2, Seeded()) == Success(AfterBuy())
  {
    var s := Series();
    var p0 := Portfolios.New(1000.0, false);
    assert Price(s, 2) == 80.0;
    assert BuyBudget(p0, 0.1) == 100.0;
    assert (100.0 / 80.0).Floor == 1;
    assert BuyAmount(p0, "X", 100.0, 80.0, 2) == Success(Filled(1, Bought()));
    assert BuyLeg("X", 0.1, 2, 80.0, p0, 100.0) == Leg(Bought(), 90.0);
    assert SellLeg("X", 0.1, 2, 80.0, Bought(), 90.0) == Leg(Bought(), 90.0);
    assert Seeded().locks["X" := 90.0] == AfterBuy().locks;
    assert Step(s, 0.1, 2, Seeded()) == Success(AfterBuy());
  }

  /** Ticks 3 and 4: the rises call for int(1 * 0.1) = 0 shares, which sell refuses. */
  lemma RefusedSells()
    ensures StockLoop([Series()], 0, 0.1, 3, AfterBuy()) == Success(AfterBuy())
    ensures StockLoop([Series()], 0, 0.1, 4, AfterBuy()) == Success(AfterBuy())
  {
    var s := Series();
    assert Quantity(Bought(), "X") == 1;
    assert SellQuantity(Bought(), "X", 0.1) == 0;
    assert Price(s, 3) == 110.0;
    assert Price(s, 4) == 120.0;
    assert AfterBuy().locks["X" := 90.0] == AfterBuy().locks;
    assert BuyLeg("X", 0.1, 3, 110.0, Bought(), 90.0) == Leg(Bought(), 90.0);
    assert SellLeg("X", 0.1, 3, 110.0, Bought(), 90.0) == Leg(Bought(), 90.0);
    assert BuyLeg("X", 0.1, 4, 120.0, Bought(), 90.0) == Leg(Bought(), 90.0);
    assert SellLeg("X", 0.1, 4, 120.0, Bought(), 90.0) == Leg(Bought(), 90.0);
    assert Step(s, 0.1, 3, AfterBuy()) == Success(AfterBuy());
    assert Step(s, 0.1, 4, AfterBuy()) == Success(AfterBuy());
  }

  lemma HoldToEnd()
    ensures TickLoop([Series()], 0.1, 5, Ticker(3), AfterBuy()) == Success(Progress(AfterBuy(), Ticker(5)))
  {
    RefusedSells();
    assert TickLoop([Series()], 0.1, 5, Ticker(4), AfterBuy()) == Success(Progress(AfterBuy(), Ticker(5)));
  }

  lemma FromTheBuy()
    ensures TickLoop([Series()], 0.1, 5, Ticker(2), Seeded()) == Success(Progress(AfterBuy(), Ticker(5)))
  {
    BuyAtEighty();
    HoldToEnd();
  }

  lemma FromTickOne()
    ensures TickLoop([Series()], 0.1, 5, Ticker(1), Seeded()) == Success(Progress(AfterBuy(), Ticker(5)))
  {
    QuietStart();
    FromTheBuy();
  }

  lemma MainLoop()
    ensures TickLoop([Series()], 0.1, 5, Ticker(0), Seeded()) == Success(Progress(AfterBuy(), Ticker(5)))
  {
    QuietStart();
    FromTickOne();
  }

  function Closed(): (p: Portfolio)
  {
    Apply(Bought(), Trade(5, SELL, "X", 1, 120.0))
  }

  /** The sell-off at tick 5 sells the share at the last close, 120. */
  lemma FinalSellOff()
    ensures SellOff([Series()], 0, 5, Bought()) == Closed()
  {
    var s := Series();
    var p2 := Apply(Bought(), Trade(5, SELL, "X", 1, 120.0));
    assert Price(s, 5) == 120.0;
    assert Quantity(Bought(), "X") == 1;
    assert Sell(Bought(), "X", 1, 120.0, 5) == Success(p2);
    assert SellOff([s], 1, 5, p2) == p2;
  }

  lemma ClosedLedger()
    ensures Closed().transactions == [Trade(2, BUY, "X", 1, 80.0), Trade(5, SELL, "X", 1, 120.0)]
    ensures Closed().cash == 1040.0
    ensures Quantity(Closed(), "X") == 0
  {
  }

  lemma RunOfSeries(t: Ticker)
    ensures TenPercent(1000.0, [Series()], 0.1, t) == Success(Run(Closed(), Ticker(5)))
  {
    SeedOfSeries();
    assert Reset(t) == Ticker(0);
    MainLoop();
    FinalSellOff();
  }

  /**
   * `TenPercent` with 1000 in cash and a 10% threshold on the prices
   * 100, 90, 80, 110, 120: one share bought at 80, sold at 120 in the final
   * sell-off, for 1040 in cash.
   */
  lemma TenPercentOnFiveCloses(t: Ticker)
    ensures TenPercent(1000.0, [Series()], 0.1, t).Success?
    ensures var p := TenPercent(1000.0, [Series()], 0.1, t).value.portfolio;
            && p.transactions == [Trade(2, BUY, "X", 1, 80.0), Trade(5, SELL, "X", 1, 120.0)]
            && p.cash == 1040.0
            && Quantity(p, "X") == 0
  {
    RunOfSeries(t);
    ClosedLedger();
  }

  /** A stock "Z" that opens at a price of 0. */
  function Worthless(): (s: Stock)
    ensures Quoted(s) && !PositiveCloses(s)
  {
    var s := Stock("Z", map[OpenColname := [0.0, 5.0], CloseColname := [0.0, 5.0]]);
    assert s.frame[CloseColname][0] == 0.0;
    s
  }

  /** A lock seeded at 0 is divided by at the first tick: the run aborts. */
  lemma TenPercentDividesByZeroLock(cash: real, percent: real, t: Ticker)
    ensures TenPercent(cash, [Worthless()], percent, t) == Failure(DivisionByZero)
  {
    var s := Worthless();
    assert [s][..0] == [];
    assert Price(s, 0) == 0.0;
    var st := State(Portfolios.New(cash, false), map["Z" := 0.0]);
    assert SeedLocks([s]) == Success(st.locks);
    assert Reset(t) == Ticker(0);
    assert StockLoop([s], 0, percent, 0, st) == Failure(DivisionByZero);
  }

  /** A stock "W" with opens but no Close column. */
  function Unquoted(): (s: Stock)
    ensures !Quoted(s) && OpenColname in s.frame && Length(s) == 1
  {
    Stock("W", map[OpenColname := [1.0]])
  }

  /** Without a Close column both strategies abort with that lookup's error. */
  lemma StrategiesNeedCloses(cash: real, percent: real, t: Ticker)
    ensures TenPercent(cash, [Unquoted()], percent, t) == Failure(LookupFailed(MissingColumn(CloseColname)))
    ensures A(cash, [Unquoted()], t) == Failure(LookupFailed(MissingColumn(CloseColname)))
  {
    assert [Unquoted()][..0] == [];
  }

  /** A stock "Y" whose price stays at 10 for 100 ticks. */
  function Steady(): (s: Stock)
    ensures PositiveCloses(s) && OpenColname in s.frame && Length(s) == 100
    ensures forall tick: nat :: Price(s, tick) == 10.0
  {
    Stock("Y", map[OpenColname := seq(100, _ => 10.0), CloseColname := seq(100, _ => 10.0)])
  }

  /** The checkpoints of a 100-tick run of `A`, in order: buys and sells alternate. */
  const SteadyTicks: seq<nat> := [5, 25, 35, 41, 65, 70, 75, 90, 95, 99]

  /** The `n`-th trade of `A` on `Steady` with 100 in cash: 2 shares, a buy when `n` is even. */
  function SteadyTrade(n: nat): Transaction
    requires n < |SteadyTicks|
  {
    Trade(SteadyTicks[n], if n % 2 == 0 then BUY else SELL, "Y", 2, 10.0)
  }

  /** The ledger after the first `n` of those trades. */
  function Ledger(n: nat): Portfolio
    requires n <= |SteadyTicks|
  {
    if n == 0 then Portfolios.New(100.0, false) else Apply(Ledger(n - 1), SteadyTrade(n - 1))
  }

  /** Cash and holding after `n` trades: 100 and 0 after an even number, 80 and 2 after an odd one. */
  ghost predicate Alternates(p: Portfolio, n: nat)
  {
    && !p.allowShort
    && p.cash == (if n % 2 == 0 then 100.0 else 80.0)
    && Quantity(p, "Y") == (if n % 2 == 0 then 0 else 2)
  }

  lemma LedgerStep(n: nat)
    requires 0 < n <= |SteadyTicks|
    requires Alternates(Ledger(n - 1), n - 1)
    ensures Alternates(Ledger(n), n)
  {
    var p, t := Ledger(n - 1), SteadyTrade(n - 1);
    var p' := Ledger(n);
    assert p'.cash == p.cash + CashDelta(t) by {
      assert p' == Apply(p, t);
    }
    assert Quantity(p', "Y") == Quantity(p, "Y") + QuantityDelta(t) by {
      assert p' == Apply(p, t);
    }
    if n % 2 == 1 {
      assert (n - 1) % 2 == 0;
      assert CashDelta(t) == -20.0 && QuantityDelta(t) == 2;
    } else {
      assert (n - 1) % 2 == 1;
      assert CashDelta(t) == 20.0 && QuantityDelta(t) == -2;
    }
  }

  lemma {:induction false} LedgerCash(n: nat)
    requires n <= |SteadyTicks|
    ensures Alternates(Ledger(n), n)
  {
    if n > 0 {
      LedgerCash(n - 1);
      LedgerStep(n);
    }
  }

  lemma {:induction false} LedgerLog(n: nat)
    requires n <= |SteadyTicks|
    ensures |Ledger(n).transactions| == n
    ensures forall j :: 0 <= j < n ==> Ledger(n).transactions[j] == SteadyTrade(j)
  {
    if n > 0 {
      LedgerLog(n - 1);
      var p := Ledger(n - 1);
      var log := p.transactions + [SteadyTrade(n - 1)];
      assert Ledger(n).transactions == log;
      forall j | 0 <= j < n
        ensures log[j] == SteadyTrade(j)
      {
        if j < n - 1 {
          assert log[j] == p.transactions[j];
        }
      }
    }
  }

  /** The tick `A`'s loop reaches after `n` trades, and the latest bought quantity then. */
  function SteadyStart(n: nat): (c: nat)
    requires n <= |SteadyTicks|
    ensures c <= 100
    ensures n < |SteadyTicks| ==> c == SteadyTicks[n] < 100
  {
    if n < |SteadyTicks| then SteadyTicks[n] else 100
  }

  function SteadyQuantity(n: nat): int
  {
    if n == 0 then 0 else 2
  }

  /** The even checkpoints of the run are its buy checkpoints and the odd ones its sell checkpoints. */
  lemma SteadyKinds(n: nat)
    requires n < |SteadyTicks|
    ensures SteadyTicks[n] in BuyTicks(100) <==> n % 2 == 0
    ensures SteadyTicks[n] in SellTicks(100) <==> n % 2 == 1
  {
    ScheduleOfHundred();
  }

  /** No checkpoint lies strictly between the `n`-th and the next, nor before the first. */
  lemma SteadyGaps(n: nat)
    requires n < |SteadyTicks|
    ensures SteadyStart(n) < SteadyStart(n + 1)
    ensures forall c :: c in BuyTicks(100) || c in SellTicks(100) ==> !(SteadyStart(n) + 1 <= c < SteadyStart(n + 1))
    ensures forall c :: c in BuyTicks(100) || c in SellTicks(100) ==> !(0 <= c < SteadyStart(0))
  {
    ScheduleOfHundred();
  }

  /** At an even checkpoint `A` buys 2 shares, a fifth of its 100 in cash at 10 a share. */
  lemma SteadyBuyPhases(n: nat)
    requires n < |SteadyTicks| && n % 2 == 0
    ensures BuyPhase(Steady(), 100.0, 100, SteadyStart(n), SteadyQuantity(n), Ledger(n)) == Success(Filled(2, Ledger(n + 1)))
    ensures SellPhase(Steady(), 100, SteadyStart(n), 2, Ledger(n + 1)) == Success(Ledger(n + 1))
  {
    var s, c, p := Steady(), SteadyStart(n), Ledger(n);
    SteadyKinds(n);
    LedgerCash(n);
    assert CloseAt(s, c) == Success(10.0);
    assert SteadyTrade(n) == Trade(c, BUY, "Y", 2, 10.0);
    assert 100.0 / 5.0 == 20.0 && (20.0 / 10.0).Floor == 2;
    assert Buy(p, "Y", 2, 10.0, c) == Success(Ledger(n + 1));
    assert BuyAmount(p, "Y", 20.0, 10.0, c) == Success(Filled(2, Ledger(n + 1)));
  }

  /** At an odd checkpoint `A` sells the 2 shares it bought at the one before. */
  lemma SteadySellPhases(n: nat)
    requires n < |SteadyTicks| && n % 2 == 1
    ensures BuyPhase(Steady(), 100.0, 100, SteadyStart(n), SteadyQuantity(n), Ledger(n)) == Success(Filled(2, Ledger(n)))
    ensures SellPhase(Steady(), 100, SteadyStart(n), 2, Ledger(n)) == Success(Ledger(n + 1))
  {
    var s, c, p := Steady(), SteadyStart(n), Ledger(n);
    SteadyKinds(n);
    LedgerCash(n);
    assert CloseAt(s, c) == Success(10.0);
    assert SteadyTrade(n) == Trade(c, SELL, "Y", 2, 10.0);
    assert Sell(p, "Y", 2, 10.0, c) == Success(Ledger(n + 1));
  }

  /** From the `n`-th checkpoint to the next one, or to the end of the run. */
  lemma SteadyHop(n: nat)
    requires n < |SteadyTicks|
    ensures ALoop(Steady(), 100.0, 100, Ticker(SteadyStart(n)), SteadyQuantity(n), Ledger(n)) ==
            ALoop(Steady(), 100.0, 100, Ticker(SteadyStart(n + 1)), SteadyQuantity(n + 1), Ledger(n + 1))
  {
    var s, c := Steady(), SteadyStart(n);
    if n % 2 == 0 {
      SteadyBuyPhases(n);
      ALoopTick(s, 100.0, 100, Ticker(c), SteadyQuantity(n), Ledger(n), Filled(2, Ledger(n + 1)), Ledger(n + 1));
    } else {
      SteadySellPhases(n);
      ALoopTick(s, 100.0, 100, Ticker(c), SteadyQuantity(n), Ledger(n), Filled(2, Ledger(n)), Ledger(n + 1));
    }
    SteadyGaps(n);
    ALoopSkip(s, 100.0, 100, Ticker(c + 1), 2, Ledger(n + 1), SteadyStart(n + 1));
  }

  /** Whatever the loop yields from the last checkpoint on, it yields from the `n`-th checkpoint on. */
  lemma {:induction false} SteadyRest(n: nat, m: nat, r: Result<Run, RunError>)
    requires n <= m == |SteadyTicks|
    requires ALoop(Steady(), 100.0, 100, Ticker(SteadyStart(m)), SteadyQuantity(m), Ledger(m)) == r
    ensures ALoop(Steady(), 100.0, 100, Ticker(SteadyStart(n)), SteadyQuantity(n), Ledger(n)) == r
    decreases m - n
  {
    if n < m {
      SteadyRest(n + 1, m, r);
      SteadyHop(n);
    }
  }

  /** At tick 100 the loop has ended. */
  lemma SteadyDone(m: nat)
    requires m == |SteadyTicks|
    ensures ALoop(Steady(), 100.0, 100, Ticker(SteadyStart(m)), SteadyQuantity(m), Ledger(m)) ==
            Success(Run(Ledger(m), Ticker(100)))
  {
  }

  /** `A` on `Steady` with 100 in cash runs to tick 100 and ends with the ledger of all ten trades. */
  lemma SteadyRun(t: Ticker, m: nat)
    requires m == |SteadyTicks|
    ensures A(100.0, [Steady()], t) == Success(Run(Ledger(m), Ticker(100)))
  {
    assert Reset(t) == Ticker(0);
    SteadyGaps(0);
    ALoopSkip(Steady(), 100.0, 100, Ticker(0), 0, Ledger(0), SteadyStart(0));
    SteadyDone(m);
    SteadyRest(0, m, Success(Run(Ledger(m), Ticker(100))));
  }

  /** After the ten trades: ten entries at the checkpoints, the initial cash back and nothing held. */
  lemma SteadyLedger(m: nat)
    requires m == |SteadyTicks|
    ensures var log := Ledger(m).transactions;
            && |log| == 10
            && (forall j :: 0 <= j < 10 ==> log[j].tick == SteadyTicks[j] && log[j].quantity == 2)
            && (forall j :: 0 <= j < 10 ==> (log[j].kind == BUY <==> j % 2 == 0))
    ensures Ledger(m).cash == 100.0 && Quantity(Ledger(m), "Y") == 0
  {
    LedgerCash(m);
    LedgerLog(m);
  }

  /**
   * `A` with 100 in cash on 100 ticks at a price of 10: ten trades of 2 shares,
   * a buy at each of 5, 35, 65, 75, 95 and a sell at each of 25, 41, 70, 90,
   * 99, ending at tick 100 with the initial cash and nothing held.
   */
  lemma AOnSteadyPrices(t: Ticker)
    ensures A(100.0, [Steady()], t).Success?
    ensures var run := A(100.0, [Steady()], t).value;
            var log := run.portfolio.transactions;
            && run.ticker == Ticker(100)
            && |log| == 10
            && (forall j :: 0 <= j < 10 ==> log[j].tick == SteadyTicks[j] && log[j].quantity == 2)
            && (forall j :: 0 <= j < 10 ==> (log[j].kind == BUY <==> j % 2 == 0))
            && run.portfolio.cash == 100.0 && Quantity(run.portfolio, "Y") == 0
  {
    var m := |SteadyTicks|;
    SteadyRun(t, m);
    SteadyLedger(m);
  }
}

=== FILE: stocks.dfy ===
/**
 * A price series (finance/stock.py): a named table of per-tick observations,
 * read "as of" the current tick with the index clamped to the last row.
 */
module Stocks {
  import opened Wrappers

  const OpenColname: string := "Open"
  const HighColname: string := "High"
  const LowColname: string := "Low"
  const CloseColname: string := "Close"

  /** The kinds of observation a series holds. */
  datatype ValueKind = Open | Close | High | Low

  /**
   * What a caller may pass where a kind is expected: one of the enumeration's
   * members, or any other value (which no branch of the source's match recognises).
   */
  datatype KindArg = Member(kind: ValueKind) | Other

  /** A series: its symbol and its table, one column per column name. */
  datatype Stock = Stock(name: string, frame: map<string, seq<real>>)

  datatype StockError =
    | MissingColumn(colname: string)   // the table has no such column
    | IndexOutOfRange                  // positional index outside the column

  function Min(a: int, b: int): int
  {
    if a <= b then a else b
  }

  /** The column a kind is read from; anything that is not a member falls back to Close. */
  function ToColname(arg: KindArg): (colname: string)
    ensures colname in {OpenColname, CloseColname, HighColname, LowColname}
    ensures arg == Other ==> colname == CloseColname
  {
    match arg
    case Member(Open) => OpenColname
    case Member(Close) => CloseColname
    case Member(High) => HighColname
    case Member(Low) => LowColname
    case Other => CloseColname
  }

  /** The four members name four different columns, and each member names its own. */
  lemma ColnamesDistinct(a: ValueKind, b: ValueKind)
    ensures ToColname(Member(a)) == ToColname(Member(b)) <==> a == b
    ensures ToColname(Member(Close)) == ToColname(Other)
  {
  }

  /** A well-formed series: all four columns present, of one common non-zero length. */
  ghost predicate Valid(s: Stock)
  {
    && OpenColname in s.frame && CloseColname in s.frame
    && HighColname in s.frame && LowColname in s.frame
    && |s.frame[OpenColname]| > 0
    && |s.frame[CloseColname]| == |s.frame[OpenColname]|
    && |s.frame[HighColname]| == |s.frame[OpenColname]|
    && |s.frame[LowColname]| == |s.frame[OpenColname]|
  }

  /** A series whose current price can be read: a non-empty Close column. */
  predicate Quoted(s: Stock)
  {
    CloseColname in s.frame && |s.frame[CloseColname]| > 0
  }

  /** A quoted series whose every closing price is strictly positive. */
  ghost predicate PositiveCloses(s: Stock)
  {
    Quoted(s) && forall i :: 0 <= i < |s.frame[CloseColname]| ==> s.frame[CloseColname][i] > 0.0
  }

  /** Number of observations: the length of the openings column. */
  function Length(s: Stock): (n: nat)
    requires OpenColname in s.frame
  {
    |s.frame[OpenColname]|
  }

  /** The whole column of one kind, in order (`values`). */
  function Values(s: Stock, arg: KindArg): (r: Result<seq<real>, StockError>)
    ensures ToColname(arg) !in s.frame ==> r == Failure(MissingColumn(ToColname(arg)))
    ensures ToColname(arg) in s.frame ==> r.Success? && r.value == s.frame[ToColname(arg)]
    ensures Valid(s) ==> r.Success? && |r.value| == Length(s)
  {
    var colname := ToColname(arg);
    if colname in s.frame then Success(s.frame[colname]) else Failure(MissingColumn(colname))
  }

  /**
   * Positional indexing of a column: a non-negative index counts from the front,
   * a negative one from the back, anything else is out of range.
   */
  function ILoc(column: seq<real>, i: int): (r: Result<real, StockError>)
    ensures r.Success? <==> -|column| <= i < |column|
    ensures 0 <= i < |column| ==> r.value == column[i]
    ensures -|column| <= i < 0 ==> r.value == column[|column| + i]
  {
    if 0 <= i < |column| then Success(column[i])
    else if -|column| <= i < 0 then Success(column[|column| + i])
    else Failure(IndexOutOfRange)
  }

  /** The observation of one kind as of `tick` (`__get_value__`). */
  function GetValue(s: Stock, arg: KindArg, tick: int): (r: Result<real, StockError>)
    ensures ToColname(arg) !in s.frame ==> r == Failure(MissingColumn(ToColname(arg)))
    ensures ToColname(arg) in s.frame && |s.frame[ToColname(arg)]| == 0 ==> r == Failure(IndexOutOfRange)
    ensures ToColname(arg) in s.frame && 0 <= tick < |s.frame[ToColname(arg)]| ==>
              r == Success(s.frame[ToColname(arg)][tick])
    ensures ToColname(arg) in s.frame && 0 < |s.frame[ToColname(arg)]| <= tick ==>
              r == Success(s.frame[ToColname(arg)][|s.frame[ToColname(arg)]| - 1])
  {
    match Values(s, arg)
    case Failure(e) => Failure(e)
    case Success(column) => ILoc(column, Min(|column| - 1, tick))
  }

  /** Reading past the end of a column gives its last observation: overrun never fails. */
  lemma ClampedOverrun(s: Stock, arg: KindArg, tick: int)
    requires ToColname(arg) in s.frame && |s.frame[ToColname(arg)]| > 0
    requires tick >= |s.frame[ToColname(arg)]|
    ensures GetValue(s, arg, tick).Success?
    ensures GetValue(s, arg, tick) == GetValue(s, arg, |s.frame[ToColname(arg)]| - 1)
  {
  }

  /**
   * The values listing and the lookup agree: within the column the lookup at
   * `tick` is element `tick` of the listing, past its end the listing's last element.
   */
  lemma ValuesMatchLookup(s: Stock, arg: KindArg, tick: int)
    requires ToColname(arg) in s.frame && 0 <= tick
    ensures Values(s, arg).Success?
    ensures tick < |Values(s, arg).value| ==> GetValue(s, arg, tick) == Success(Values(s, arg).value[tick])
    ensures 0 < |Values(s, arg).value| <= tick ==>
              GetValue(s, arg, tick) == Success(Values(s, arg).value[|Values(s, arg).value| - 1])
  {
  }

  /** The close accessor: the Close column at the tick clamped to that column; it fails exactly off a quoted series. */
  function CloseAt(s: Stock, tick: nat): (r: Result<real, StockError>)
    ensures r.Success? <==> Quoted(s)
    ensures Quoted(s) ==> r.value == s.frame[CloseColname][Min(|s.frame[CloseColname]| - 1, tick)]
    ensures CloseColname !in s.frame ==> r == Failure(MissingColumn(CloseColname))
    ensures CloseColname in s.frame && !Quoted(s) ==> r == Failure(IndexOutOfRange)
  {
    GetValue(s, Member(Close), tick)
  }

  /** The open accessor: the Open column at the tick clamped to that column. */
  function OpenAt(s: Stock, tick: nat): (r: Result<real, StockError>)
    ensures r.Success? <==> OpenColname in s.frame && |s.frame[OpenColname]| > 0
    ensures r.Success? ==> r.value == s.frame[OpenColname][Min(|s.frame[OpenColname]| - 1, tick)]
  {
    GetValue(s, Member(Open), tick)
  }

  /** The low accessor: the Low column at the tick clamped to that column. */
  function LowAt(s: Stock, tick: nat): (r: Result<real, StockError>)
    ensures r.Success? <==> LowColname in s.frame && |s.frame[LowColname]| > 0
    ensures r.Success? ==> r.value == s.frame[LowColname][Min(|s.frame[LowColname]| - 1, tick)]
  {
    GetValue(s, Member(Low), tick)
  }

  /** The high accessor: the High column at the tick clamped to that column. */
  function HighAt(s: Stock, tick: nat): (r: Result<real, StockError>)
    ensures r.Success? <==> HighColname in s.frame && |s.frame[HighColname]| > 0
    ensures r.Success? ==> r.value == s.frame[HighColname][Min(|s.frame[HighColname]| - 1, tick)]
  {
    GetValue(s, Member(High), tick)
  }

  /**
   * The current price of a quoted series at `tick`, used by the ledger and the
   * strategies: what the close accessor returns, positive when every close is.
   */
  function Price(s: Stock, tick: nat): (price: real)
    requires Quoted(s)
    ensures CloseAt(s, tick) == Success(price)
    ensures PositiveCloses(s) ==> price > 0.0
  {
    var closes := s.frame[CloseColname];
    closes[Min(|closes| - 1, tick)]
  }
}

=== FILE: tickers.dfy ===
/**
 * The simulated time cursor (utils/ticker.py). The source keeps one process-wide
 * instance; here a ticker is an immutable value that every run threads explicitly.
 */
module Tickers {

  datatype Ticker = Ticker(value: int)

  /** A fresh ticker reads the tick it was created with. */
  function New(initialTick: int): (t: Ticker)
    ensures t.value == initialTick
  {
    Ticker(initialTick)
  }

  /** The ticker the source creates without an argument. */
  function Default(): (t: Ticker)
    ensures t.value == 0
  {
    New(0)
  }

  /** Advances simulated time by exactly one tick. */
  function Tick(t: Ticker): (t': Ticker)
    ensures t'.value == t.value + 1
  {
    Ticker(t.value + 1)
  }

  /** Moves the cursor back to tick 0, whatever it read before. */
  function Reset(t: Ticker): (t': Ticker)
    ensures t'.value == 0
  {
    Ticker(0)
  }

  /** `n` consecutive calls of `Tick`. */
  function TickN(t: Ticker, n: nat): (t': Ticker)
    ensures t'.value == t.value + n
    decreases n
  {
    if n == 0 then t else TickN(Tick(t), n - 1)
  }

  /** After a reset followed by `n` ticks the cursor reads `n`. */
  lemma {:induction false} ResetThenTicks(t: Ticker, n: nat)
    ensures TickN(Reset(t), n) == New(n)
  {

  }
}

=== FILE: transactions.dfy ===
/**
 * The trade record (finance/transaction.py, finance/enums.py) and the read-only
 * views the ledger offers over its append-only log of them.
 */
module Transactions {

  datatype TransactionType = BUY | SELL

  /** One accepted trade, stamped with the tick at which it happened. */
  datatype Transaction = Transaction(
    tick: int,
    kind: TransactionType,
    stockName: string,
    quantity: int,
    price: real,
    amount: real)

  /** The trades of one stock, in log order (`get_stock_transactions`). */
  function ForStock(log: seq<Transaction>, name: string): (r: seq<Transaction>)
    ensures |r| <= |log|
    ensures forall t :: t in r <==> t in log && t.stockName == name
  {
    if |log| == 0 then []
    else if log[0].stockName == name then [log[0]] + ForStock(log[1..], name)
    else ForStock(log[1..], name)
  }

  /** The cash a trade moves into the ledger: sells bring money in, buys take it out. */
  function CashDelta(t: Transaction): real
  {
    match t.kind
    case BUY => -t.amount
    case SELL => t.amount
  }

  /** The change a trade makes to its stock's holding. */
  function QuantityDelta(t: Transaction): int
  {
    match t.kind
    case BUY => t.quantity
    case SELL => -t.quantity
  }

  /** Net cash moved by a whole log. */
  function CashFlow(log: seq<Transaction>): real
  {
    if |log| == 0 then 0.0 else CashDelta(log[0]) + CashFlow(log[1..])
  }

  /** Net quantity of one stock bought minus sold over a whole log. */
  function Net(log: seq<Transaction>, name: string): int
  {
    if |log| == 0 then 0
    else (if log[0].stockName == name then QuantityDelta(log[0]) else 0) + Net(log[1..], name)
  }

  /** Filtering by stock distributes over appending: the filter keeps log order. */
  lemma {:induction false} ForStockAppend(a: seq<Transaction>, b: seq<Transaction>, name: string)
    ensures ForStock(a + b, name) == ForStock(a, name) + ForStock(b, name)
    decreases |a|
  {
    if |a| == 0 {
      assert a + b == b;
    } else {
      assert (a + b)[1..] == a[1..] + b;
      ForStockAppend(a[1..], b, name);
    }
  }

  /** The cash flow of two logs laid end to end is the sum of theirs. */
  lemma {:induction false} CashFlowAppend(a: seq<Transaction>, b: seq<Transaction>)
    ensures CashFlow(a + b) == CashFlow(a) + CashFlow(b)
    decreases |a|
  {
    if |a| == 0 {
      assert a + b == b;
    } else {
      assert (a + b)[1..] == a[1..] + b;
      CashFlowAppend(a[1..], b);
    }
  }

  /** The net quantity of two logs laid end to end is the sum of theirs. */
  lemma {:induction false} NetAppend(a: seq<Transaction>, b: seq<Transaction>, name: string)
    ensures Net(a + b, name) == Net(a, name) + Net(b, name)
    decreases |a|
  {
    if |a| == 0 {
      assert a + b == b;
    } else {
      assert (a + b)[1..] == a[1..] + b;
      NetAppend(a[1..], b, name);
    }
  }

  /** Every trade in the log carries amount = price * quantity. */
  ghost predicate Priced(log: seq<Transaction>)
  {
    forall j :: 0 <= j < |log| ==> log[j].amount == log[j].price * log[j].quantity as real
  }

  /** The log is in time order and every stamp lies in [0, bound). */
  ghost predicate StampedBefore(log: seq<Transaction>, bound: int)
  {
    && (forall j :: 0 <= j < |log| ==> 0 <= log[j].tick < bound)
    && (forall j, k :: 0 <= j < k < |log| ==> log[j].tick <= log[k].tick)
  }
}

=== FILE: wrappers.dfy ===
/** Failure-carrying results: the model's replacement for the exceptions the source raises. */
module Wrappers {

  /** Either a value or the reason the operation was refused. */
  datatype Result<+T, +E> = Success(value: T) | Failure(error: E)
}
